=== FILE: README.md ===
# ASF automatic achievement unlocker — a Dafny model of its decision logic

The bot drives Steam accounts through ArchiSteamFarm (ASF). For each account it decides
when to play, keeps a "play session" running, and unlocks the game's achievements one
at a time. It aims at a human-looking pace, so common achievements come before rare ones.
All commands to an ASF server go through a per-address rate limiter.

This project models the deterministic part of that behaviour. Every `Math.random()`
value, clock reading and ASF reply is a parameter. A reply that never came (the command
failed and `executeASFCommand` returned `undefined`) is `None`.

Modules, one per concern:

- `Draws`: `randomIntBetween` and `randomFloatBetween`.
- `Achievements`: the statistics entry, the "not yet unlocked" filter and the sort by
  rarity (most common first).
- `Selection`: the top-20% pick. Both versions are here. A play session uses the bot's,
  which can index one past the slice. The order generator uses the half-open one.
- `AchievementOrder`: the reference unlock-order generator.
- `DaysOff`, `BotConfig`: the persisted configuration record and its first-time draw.
- `Schedule`: the wrap-around active-hour window and the once-a-day day-off decision.
- `Alist`: the parser for the `alist` reply.
- `Unlock`: classifying the `aset` reply.
- `Session`: `startGame`, `stopGame` and the chunked `playGame` loop.
- `RateLimiter`: `limit` as a sequential transition on the address-to-last-grant map.
- `Common`, `Strings`: shared helpers (optional values, `indexOf`, `splice`, `includes`,
  `split`, `join`).

Behaviours of the code the model follows deliberately:

- After an unlock, `playGame` resets `remainingPlaytime` without saving it
  (class/ASFBot.js:219). The next save comes only after the next decrement. So a stop
  between the two leaves a value of 0 or below on disk, and the next run unlocks again
  after its first chunk.
- A failed `aset` command is not survived. `response.includes` on `undefined` throws out
  of `playGame`, and so does `nextAchievement.id` when nothing was selected. The model
  reports `Crashed` for these. Then `playGame`'s own `stopGame` (class/ASFBot.js:227) is
  skipped. The process-wide handler then sends `reset` to every bot still marked playing
  and exits with status 1 (index.js:32-53). That handler is not modelled.
- A failed `play` or `reset` acknowledgement only leaves `isPlaying` as it was.
- The rate limiter waits only for the time since the last grant. A stored timestamp of 0
  counts as "no previous request".

## Model

| member | source | states |
|---|---|---|
| Draws.RandomIntBetween | class/ASFBot.js:238-240 | for a draw in [0,1) the integer lies in the closed range [min, max], upper bound included; it is min + j for the j with j <= r(max - min + 1) < j + 1 |
| Draws.RandomIntFromZero | class/ASFBot.js:302 | `randomIntBetween(0, size)` is an index in [0, size], the part of the draw among size + 1 equal parts of [0, 1), so the past-the-end index size is as likely as any entry |
| Draws.RandomIntHitsMax | class/ASFBot.js:238-240 | the upper bound is returned exactly when the draw is at least (max-min)/(max-min+1) |
| Draws.RandomFloatBetween | class/ASFBot.js:233-235 | the value lies in [min, max), or equals min when min = max |
| Achievements.Remaining | class/ASFBot.js:311 | each achievement occurs in the filtered list as often as in the statistics if its id is not unlocked, and not at all otherwise |
| Achievements.RemainingAppend | test/achievementOrder.js:31 | the filter keeps the statistics order (it distributes over concatenation) |
| Achievements.SortByRarity | class/ASFBot.js:314 | the result is a permutation of the input ordered by non-increasing rarity |
| Achievements.CountAboveSort | test/achievementOrder.js:34 | sorting leaves unchanged how many entries are more common than a given rarity |
| Achievements.SortedRank | class/ASFBot.js:314 | in a rarity-ordered list, at most i entries are strictly more common than the entry at position i |
| Selection.SliceSize | class/ASFBot.js:296-300 | the slice is the largest k with 5k <= n when n >= 5, 1 when 0 < n < 5, 0 for an empty list |
| Selection.SelectAsWritten | class/ASFBot.js:295-303 | anything selected comes from the slice (but the index may fall past it); a pick is slice entry j for the one j with j <= r(size + 1) < j + 1 |
| Selection.AsWrittenMisses | class/ASFBot.js:301-302 | the bot's selection returns undefined exactly for draws r with r*(size+1) >= size (Selection.Overshoots: the draw lands on the extra index `size`), for every list |
| Selection.AsWrittenMissExample | class/ASFBot.js:302 | one locked achievement and draw 0.5 select nothing |
| Selection.TopIndex | test/achievementOrder.js:20 | the half-open index lies in [0, size) for a non-empty slice, and it is the k with k <= r*size < k+1, so each index gets an equal share 1/size of the draws |
| Selection.SelectTop | test/achievementOrder.js:13-21 | something is selected iff the list is non-empty, always from the slice, and with fewer than 5 entries always the first (most common) one; the pick is the entry at the index j with j <= r*size < j+1 |
| Selection.NextAchievement | class/ASFBot.js:306-320 | the CORRECTED getNextAchievement (half-open index, as in test/achievementOrder.js:20): a pick exists iff some listed id is not unlocked; it is such an achievement; fewer than slice-size remaining ones are strictly more common |
| Selection.LockedNonEmpty | class/ASFBot.js:311 | the filtered list is non-empty iff some listed id is not unlocked |
| Selection.NextAsWritten | class/ASFBot.js:306-320 | the bot's pick, when defined, is a listed achievement that is not unlocked, and fewer than slice-size remaining ones are strictly more common (it comes from the most common 20%) |
| Selection.AsWrittenRank | class/ASFBot.js:300-316 | whatever the bot's selection picks from the sorted filtered list is one of its entries, with fewer than slice-size of them strictly more common |
| Selection.NextAsWrittenMisses | class/ASFBot.js:296-313 | the bot's getNextAchievement returns undefined iff the draw overshoots the slice of the still-locked achievements, and always once every listed id is unlocked |
| Selection.NextAsWrittenMissExample | class/ASFBot.js:296-302 | with one locked achievement the bot's version can select nothing while the corrected one selects it |
| AchievementOrder.GenerateAchievementOrder | test/achievementOrder.js:24-40 | the order is produced iff the ids are distinct; it is then a permutation of the ids, one per listed achievement, each chosen from the top slice of what was left |
| AchievementOrder.Stuck | test/achievementOrder.js:29-37 | if every listed id is scheduled before the list length is reached, some id repeats |
| AchievementOrder.Complete | test/achievementOrder.js:29-40 | as many distinct scheduled ids as entries means the ids are distinct and the schedule is their permutation |
| AchievementOrder.Extend | test/achievementOrder.js:39 | pushing an id not yet scheduled keeps the list duplicate-free, inside the ids, and top-slice at every position |
| DaysOff.DrawDaysOff | class/ASFBot.js:55-63 | exactly as many days as the count draw gives (0 to 3) are drawn, no day twice, all in 0..6 |
| BotConfig.LoadConfig | class/ASFBot.js:36-69 | a stored record comes back unchanged; otherwise one is created, with every field in its drawn range |
| BotConfig.WithRemaining | class/ASFBot.js:72-82 | a save during play changes only the remaining playtime and keeps the personality fields |
| Schedule.Rem24 | class/ASFBot.js:259 | JavaScript's remainder by 24 has the sign of its operand and is smaller than 24 in size |
| Schedule.Rem24Multiple | class/ASFBot.js:259 | the operand minus the remainder is a whole number of 24-hour days |
| Schedule.ActiveWindow | class/ASFBot.js:259 | the active-hour test Schedule.IsActiveHour, `(hour - offset + 24) % 24 < duration`: an hour is active iff it lies in [offset, offset+duration) or in its part wrapped past midnight |
| Schedule.ActiveWindowExample | class/ASFBot.js:259 | with offset 22 and duration 4, hours 23 and 1 are active and hour 10 is not |
| Schedule.NewDay | class/ASFBot.js:251-256 | the day-off flag is redrawn only on a new date, as "fixed day off or draw below the probability" |
| Schedule.FixedDayOffNeverPlays | class/ASFBot.js:248-261 | across any run of iterations, a weekday in daysOff never starts a session |
| Schedule.NoChanceDayOffPlays | class/ASFBot.js:248-261 | with probability 0, an iteration starts a session (Schedule.StartsSession, the test of line 261) iff its hour is active and its weekday is not a fixed day off |
| Strings.Contains | class/ASFBot.js:121-123 | includes holds iff the text occurs at some position |
| Strings.Split | class/ASFBot.js:113 | split on one character gives at least one piece and no piece holds the separator |
| Strings.SplitJoin | class/ASFBot.js:113 | splitting a join returns the pieces when none holds the separator |
| Strings.JoinSplit | class/ASFBot.js:113 | joining the pieces of a split returns the text |
| Strings.FirstToken | class/ASFBot.js:118-119 | the id is the prefix of the line up to its first space, and holds no space |
| Alist.ParseLines | class/ASFBot.js:117-126 | each line adds at most one id |
| Alist.ParseOneLine | class/ASFBot.js:121-125 | a cross-marked line is locked (tested first), a check-marked one unlocked, any other line is dropped |
| Alist.ParseLinesMembers | class/ASFBot.js:113-128 | an id is locked iff some cross-marked line starts with it, unlocked iff some other check-marked line does |
| Alist.ParseLinesAppend | class/ASFBot.js:117-126 | line order is kept in both lists |
| Alist.RenderRoundTrip | class/ASFBot.js:113-128 | Alist.ParseAlist (split on line breaks, then parse the lines) of a rendered reply of plain ids gives back the same locked and unlocked lists |
| Alist.UpdateAchievementsStatus | class/ASFBot.js:109-134 | a missing reply leaves the previous data untouched; a reply replaces the data by the parse of that reply |
| Unlock.RemoveFirst | class/ASFBot.js:175-178 | removes exactly one occurrence of the id when present, and nothing otherwise; the removed one is the first: what precedes it is kept and what follows it shifts down by one |
| Unlock.UnlockAchievement | class/ASFBot.js:159-184 | success iff the reply contains "Success!", then the id is appended to unlocked and one copy leaves locked; already-unlocked and unexpected replies change nothing |
| Unlock.UnlockKeepsConsistent | class/ASFBot.js:170-178 | unlocking an id that is not yet unlocked keeps both lists duplicate-free and disjoint, and a success moves it out of locked |
| Session.StartGame | class/ASFBot.js:137-145 | the flag is raised iff the reply is exactly the play acknowledgement; otherwise it keeps its value |
| Session.StopGame | class/ASFBot.js:148-156 | the flag is lowered iff the reply is exactly the done acknowledgement |
| Session.AcksDiffer | class/ASFBot.js:139-150 | the play acknowledgement (Session.PlayAck, line 139) and the done acknowledgement (Session.DoneAck, line 150) differ for every bot name |
| Session.StartStop | class/ASFBot.js:137-156 | an acknowledged start followed by an acknowledged stop ends not playing; an unacknowledged stop leaves the bot playing |
| Session.Chunk | class/ASFBot.js:188-190 | a chunk is between 30 and 90 seconds |
| Session.PlayGame | class/ASFBot.js:187-230 | every iteration subtracts and saves its chunk, and tries an unlock iff the saved value is <= 0; the attempt is AttemptUnlock on the data the earlier iterations left, and the chunk is redrawn only after an attempt that did not throw; the session crashes iff its last iteration's attempt threw, and no earlier one did; a finished session covers playTime and leaves the remaining playtime the iterations determine; a crash leaves the value last saved and skips the stop; the final data is what the last iteration left, untouched without an attempt; only remainingPlaytime changes in the config |
| Session.PlayLoop | class/ASFBot.js:198-225 | the loop alone: it runs iterations that each follow the step rules until elapsed reaches playTime or an attempt throws, saving the remaining playtime after every chunk |
| Session.NextStep | class/ASFBot.js:198-225 | one iteration built in the source's order (subtract, save, attempt, reset, redraw) satisfies the step rules that PlayGame states |
| Session.NoAttemptKeepsData | class/ASFBot.js:208-216 | over iterations without an unlock attempt the achievement data stays what the session started with |
| Session.AttemptUnlock | class/ASFBot.js:209-216 | with the bot's own selection: the attempt throws iff there is still no data after the refresh, the draw overshoots the slice of the locked achievements (always so when none is left locked), or aset gets no reply; otherwise the data either stays or gains exactly one id, that of a listed achievement not yet unlocked with fewer than the slice size of the still-locked ones strictly more common (the most common 20%), and it gains it iff the aset reply contains "Success!"; consistent data stays consistent |
| Session.UnlockSelected | class/ASFBot.js:159-178 | sending aset for an id not yet unlocked either keeps the data or appends exactly that id, it appends it iff the reply contains "Success!", and consistent data stays consistent |
| Session.AttemptUnlockMissExample | class/ASFBot.js:211-213 | one locked achievement, draw 0.5: the attempt throws although an achievement is left |
| Session.AttemptUnlockHitExample | class/ASFBot.js:211-216 | the same attempt with draw 0.4 and a "Success!" reply unlocks the achievement |
| Session.SmallRemainderUnlocksFirst | class/ASFBot.js:198-213 | with less playtime left than the first chunk, the first iteration tries an unlock; if the fresh time after it is at least 90 seconds, the second iteration does not |
| RateLimiter.Delay | class/rateLimiter.js:18-27 | no wait without a previous grant (absent or 0) or once 10 s have passed; otherwise a positive wait, at most 10 s if the clock did not go back, and never letting a request through before 10 s after the last grant |
| RateLimiter.Limit | class/rateLimiter.js:16-44 | the wait is the computed delay; the address now maps to the grant time, other addresses keep their entries, and a grant comes at least 10 s after the address's previous one |
| RateLimiter.GrantsSpaced | class/rateLimiter.js:4-43 | in sequential use any two grants for one address are at least 10 000 ms apart |
| RateLimiter.FirstCallNoWait | class/rateLimiter.js:18 | an address's first call never waits, whatever other addresses did |

## Left out

- `getTimeToNextAchievement` and test/achievementTimeEstimation.js are not modelled. They are `Math.exp` floating-point numerics. Their results come in as parameters: `nextTime` of a session attempt and `initialRemaining` of a fresh configuration.
- `executeASFCommand` is not modelled: the HTTP transport, the command texts and the call to `rateLimiter.limit`. Each ASF reply is a parameter instead.
- File access and JSON are not modelled. The stored configuration is a value, `None` when the file is missing. A malformed file is not modelled.
- The promise queue of the rate limiter, `sleep`/`setTimeout` and the concurrent per-bot loops are not modelled. Only the sequential transitions are.
- The session and break lengths of `startGamingLoop` (a session of random 0.5–5 h, then a break of random 0.5–5 h, or a wait of random 1–2 h before re-checking when the hour is inactive or the day is off; class/ASFBot.js:265, 269, 275) are not modelled. They only feed sleeps and `playTime`, and `playTime` is a parameter of `PlayGame`.
- index.js is not modelled: process signals, the bot registry and the shutdown `Promise.all`. util/logger.js is not modelled either. Both are wiring and output.
- `Math.random()` and `new Date()` are replaced by injected values.
- JavaScript numbers are modelled as exact reals. Rounding of the doubles is not modelled. `Math.floor(n * 0.2)` is taken as `n / 5`.
- `initialize` is not modelled. It calls `updateAchievementsStatus` before `loadConfig`. That order matters only to `getTimeToNextAchievement`, which is left out.
- BotConfig.LoadConfig: the fresh branch always succeeds in the model. In the code, with no config file and a failed first `alist`, `achievementData` is still `null` (class/ASFBot.js:21). Then `getTimeToNextAchievement` reads `this.achievementData.unlocked` (class/ASFBot.js:51, 283) and throws. `initialize` rejects (index.js:19) and the process exits (index.js:49-53).
- Achievements.SortByRarity: the contract does not state stability. Ties keep their input order in the model, as they do in a stable `Array.prototype.sort`, but this is not proved.
- Alist.ParseLines: the contract only bounds the number of ids. Which lines go where, and in what order, is stated by Alist.ParseOneLine, Alist.ParseLinesMembers and Alist.ParseLinesAppend.
- Schedule.FixedDayOffNeverPlays, Schedule.NoChanceDayOffPlays: these hold for runs where two consecutive iterations with the same day of month fall on the same weekday. The loop keys the day-off decision on the day of month alone.
- RateLimiter.GrantsSpaced: this holds for positive clock readings only. A grant stored at time 0 reads as "no previous request".

## Findings

| source | as written | input that shows it | evidently intended | confidence | as-written member | corrected member |
|---|---|---|---|---|---|---|
| class/ASFBot.js:302 | the index into the top slice comes from the inclusive `randomIntBetween(0, size)`, so it can equal the slice length | one locked achievement and `Math.random()` = 0.5 give index 1 of a one-element slice, so the result is `undefined`; `playGame` then throws on `nextAchievement.id` and the unhandled rejection stops the process | a half-open index in [0, size), as test/achievementOrder.js:20 computes it | high; not executed | Selection.AsWrittenMisses, Session.AttemptUnlockMissExample | Selection.NextAchievement |

=== FILE: achievements.dfy ===
/**
 Achievement metadata and the two list operations both selection routines
 start from: keep the achievements whose id is not yet taken, then order
 them from the most common (highest rarity percentage) to the least.
 */
module Achievements {
  import opened Common

  /** One entry of the achievement statistics: `rare` is the percentage of
      players holding it, so a higher value means a more common one. */
  datatype Achievement = Achievement(id: string, name: string, rare: real)

  /** The ids of a list of achievements, position by position. */
  function Ids(s: seq<Achievement>): (ids: seq<string>)
    ensures |ids| == |s|
    ensures forall k :: 0 <= k < |s| ==> ids[k] == s[k].id
  {
    if |s| == 0 then [] else [s[0].id] + Ids(s[1..])
  }

  /** `stats.filter(a => !taken.includes(a.id))`: the achievements whose id
      is not taken, each kept as many times as it occurs in `stats`. */
  function Remaining(stats: seq<Achievement>, taken: seq<string>): (r: seq<Achievement>)
    ensures |r| <= |stats|
    ensures forall a :: multiset(r)[a] == if a.id in taken then 0 else multiset(stats)[a]
  {
    if |stats| == 0 then []
    else
      var rest := Remaining(stats[1..], taken);
      assert stats == [stats[0]] + stats[1..];
      if stats[0].id in taken then rest else [stats[0]] + rest
  }

  /** The filter keeps the source order: it distributes over concatenation. */
  lemma {:induction false} RemainingAppend(a: seq<Achievement>, b: seq<Achievement>, taken: seq<string>)
    ensures Remaining(a + b, taken) == Remaining(a, taken) + Remaining(b, taken)
  {
    if |a| > 0 {
      assert (a + b)[1..] == a[1..] + b;
      RemainingAppend(a[1..], b, taken);
    } else {
      assert a + b == b;
    }
  }

  /** Ordered from the most common to the least common. */
  predicate ByRarity(s: seq<Achievement>) {
    forall i, j :: 0 <= i < j < |s| ==> s[i].rare >= s[j].rare
  }

  /** Places `x` in front of the first element that is not more common. */
  function Insert(x: Achievement, s: seq<Achievement>): (r: seq<Achievement>)
    requires ByRarity(s)
    ensures ByRarity(r)
    ensures multiset(r) == multiset(s) + multiset{x}
    ensures |r| == |s| + 1 && (r[0] == x || (|s| > 0 && r[0] == s[0]))
  {
    if |s| == 0 || s[0].rare <= x.rare then
      ConsByRarity(x, s);
      [x] + s
    else
      var t := s[1..];
      assert s == [s[0]] + t;
      assert ByRarity(t) by {
        forall i, j | 0 <= i < j < |t| ensures t[i].rare >= t[j].rare {
          assert t[i] == s[i + 1] && t[j] == s[j + 1];
        }
      }
      var rest := Insert(x, t);
      assert rest[0].rare <= s[0].rare by {
        if rest[0] != x {
          assert s[1] == t[0];
        }
      }
      ConsByRarity(s[0], rest);
      [s[0]] + rest
  }

  /** A rarity-ordered list stays ordered behind an entry at least as
      common as its head. */
  lemma ConsByRarity(h: Achievement, s: seq<Achievement>)
    requires ByRarity(s) && (|s| > 0 ==> s[0].rare <= h.rare)
    ensures ByRarity([h] + s)
  {
    var r := [h] + s;
    forall i, j | 0 <= i < j < |r| ensures r[i].rare >= r[j].rare {
      if i == 0 {
        assert r[j] == s[j - 1];
        assert s[0].rare >= s[j - 1].rare;
      } else {
        assert r[i] == s[i - 1] && r[j] == s[j - 1];
      }
    }
  }

  /** `sort((a, b) => b.rare - a.rare)`, as a stable insertion sort: the
      result is a permutation of the input in non-increasing rarity. */
  function SortByRarity(s: seq<Achievement>): (r: seq<Achievement>)
    ensures ByRarity(r)
    ensures multiset(r) == multiset(s)
  {
    if |s| == 0 then []
    else
      assert s == [s[0]] + s[1..];
      Insert(s[0], SortByRarity(s[1..]))
  }

  /** How many entries are strictly more common than rarity `p`. */
  function CountAbove(s: seq<Achievement>, p: real): nat {
    if |s| == 0 then 0 else (if s[0].rare > p then 1 else 0) + CountAbove(s[1..], p)
  }

  lemma {:induction false} CountAboveInsert(x: Achievement, s: seq<Achievement>, p: real)
    requires ByRarity(s)
    ensures CountAbove(Insert(x, s), p) == CountAbove(s, p) + (if x.rare > p then 1 else 0)
  {
    if |s| > 0 && s[0].rare > x.rare {
      CountAboveInsert(x, s[1..], p);
    }
  }

  /** Sorting does not change how many entries are more common than `p`. */
  lemma {:induction false} CountAboveSort(s: seq<Achievement>, p: real)
    ensures CountAbove(SortByRarity(s), p) == CountAbove(s, p)
  {
    if |s| > 0 {
      CountAboveSort(s[1..], p);
      CountAboveInsert(s[0], SortByRarity(s[1..]), p);
    }
  }

  /** In a list ordered by rarity, the entry at position `i` has at most `i`
      entries that are strictly more common than it. */
  lemma {:induction false} SortedRank(s: seq<Achievement>, i: nat)
    requires ByRarity(s) && i < |s|
    ensures CountAbove(s, s[i].rare) <= i
  {
    if i == 0 {
      NoneAbove(s, s[0].rare);
    } else {
      SortedRank(s[1..], i - 1);
      assert s[1..][i - 1] == s[i];
    }
  }

  lemma {:induction false} NoneAbove(s: seq<Achievement>, p: real)
    requires forall k :: 0 <= k < |s| ==> s[k].rare <= p
    ensures CountAbove(s, p) == 0
  {
    if |s| > 0 {
      NoneAbove(s[1..], p);
    }
  }
}

=== FILE: alist.dfy ===
/**
 The reply to the `alist` command as `updateAchievementsStatus` in
 class/ASFBot.js reads it: one achievement per line, its id the line's
 first space-separated token, a cross mark (U+274C) for a locked one and a
 check mark (U+2705) for an unlocked one.
 */
module Alist {
  import opened Common
  import opened Strings

  const CrossMark: char := '\U{274C}'
  const CheckMark: char := '\U{2705}'

  /** The bot's local view of its progress (`achievementData`). */
  datatype AchievementData = AchievementData(unlocked: seq<string>, locked: seq<string>)

  /** The `forEach` over the lines: a line with a cross mark adds its id to
      `locked` (tested first), otherwise one with a check mark adds it to
      `unlocked`, and any other line adds nothing. */
  function ParseLines(lines: seq<string>): (d: AchievementData)
    ensures |d.locked| + |d.unlocked| <= |lines|
    decreases |lines|
  {
    if |lines| == 0 then AchievementData([], [])
    else AddLine(lines[0], ParseLines(lines[1..]))
  }

  /** The body of the `forEach`, for one line in front of the data the
      later lines give. */
  function AddLine(line: string, rest: AchievementData): (d: AchievementData)
    ensures |d.locked| + |d.unlocked| <= |rest.locked| + |rest.unlocked| + 1
  {
    var id := FirstToken(line);
    if CrossMark in line then AchievementData(rest.unlocked, [id] + rest.locked)
    else if CheckMark in line then AchievementData([id] + rest.unlocked, rest.locked)
    else rest
  }

  /** Two blocks of data, one after the other. */
  function Concat(a: AchievementData, b: AchievementData): AchievementData {
    AchievementData(a.unlocked + b.unlocked, a.locked + b.locked)
  }

  lemma AddLineConcat(line: string, a: AchievementData, b: AchievementData)
    ensures AddLine(line, Concat(a, b)) == Concat(AddLine(line, a), b)
  {
    assert [FirstToken(line)] + (a.locked + b.locked) == ([FirstToken(line)] + a.locked) + b.locked;
    assert [FirstToken(line)] + (a.unlocked + b.unlocked) == ([FirstToken(line)] + a.unlocked) + b.unlocked;
  }

  /** `data.split('\n')` followed by the loop. */
  function ParseAlist(data: string): AchievementData {
    ParseLines(Split(data, '\n'))
  }

  /** `updateAchievementsStatus`: a missing reply (the command failed and
      gave `undefined`, so `split` throws and the error is logged) leaves
      the previous data, possibly still unset, untouched. */
  function UpdateAchievementsStatus(prev: Option<AchievementData>, reply: Option<string>): (d: Option<AchievementData>)
    ensures reply.None? ==> d == prev
    ensures reply.Some? ==> d == Some(ParseAlist(reply.value))
  {
    if reply.Some? then Some(ParseAlist(reply.value)) else prev
  }

  /** How one line is classified. */
  lemma ParseOneLine(line: string)
    ensures var d := ParseLines([line]);
      && (CrossMark in line ==> d == AchievementData([], [FirstToken(line)]))
      && (CrossMark !in line && CheckMark in line ==> d == AchievementData([FirstToken(line)], []))
      && (CrossMark !in line && CheckMark !in line ==> d == AchievementData([], []))
  {
    assert [line][1..] == [];
  }

  /** Which ids land where: every cross-marked line's id is locked, every
      other check-marked line's id is unlocked, and nothing else is. */
  lemma ParseLinesMembers(lines: seq<string>)
    ensures var d := ParseLines(lines);
      && (forall k :: 0 <= k < |lines| && CrossMark in lines[k] ==> FirstToken(lines[k]) in d.locked)
      && (forall k :: 0 <= k < |lines| && CrossMark !in lines[k] && CheckMark in lines[k] ==>
            FirstToken(lines[k]) in d.unlocked)
      && (forall x :: x in d.locked ==>
            exists k :: 0 <= k < |lines| && CrossMark in lines[k] && FirstToken(lines[k]) == x)
      && (forall x :: x in d.unlocked ==>
            exists k :: 0 <= k < |lines| && CrossMark !in lines[k] && CheckMark in lines[k] && FirstToken(lines[k]) == x)
  {
    ParseLinesCollects(lines);
    ParseLinesSources(lines);
  }

  /** Every marked line's id is listed. */
  lemma {:induction false} ParseLinesCollects(lines: seq<string>)
    ensures var d := ParseLines(lines);
      && (forall k :: 0 <= k < |lines| && CrossMark in lines[k] ==> FirstToken(lines[k]) in d.locked)
      && (forall k :: 0 <= k < |lines| && CrossMark !in lines[k] && CheckMark in lines[k] ==>
            FirstToken(lines[k]) in d.unlocked)
    decreases |lines|
  {
    if |lines| > 0 {
      var tail := lines[1..];
      ParseLinesCollects(tail);
      assert forall k :: 0 < k < |lines| ==> lines[k] == tail[k - 1];
      AddLineMembers(lines[0], ParseLines(tail));
    }
  }

  /** Every listed id comes from a line marked accordingly. */
  lemma {:induction false} ParseLinesSources(lines: seq<string>)
    ensures forall x :: x in ParseLines(lines).locked ==>
      exists k :: 0 <= k < |lines| && CrossMark in lines[k] && FirstToken(lines[k]) == x
    ensures forall x :: x in ParseLines(lines).unlocked ==>
      exists k :: 0 <= k < |lines| && CrossMark !in lines[k] && CheckMark in lines[k] && FirstToken(lines[k]) == x
    decreases |lines|
  {
    if |lines| > 0 {
      var tail := lines[1..];
      ParseLinesSources(tail);
      var rest := ParseLines(tail);
      AddLineMembers(lines[0], rest);
      var d := ParseLines(lines);
      forall x | x in d.locked
        ensures exists k :: 0 <= k < |lines| && CrossMark in lines[k] && FirstToken(lines[k]) == x
      {
        if x !in rest.locked {
          assert CrossMark in lines[0] && FirstToken(lines[0]) == x;
        } else {
          var k :| 0 <= k < |tail| && CrossMark in tail[k] && FirstToken(tail[k]) == x;
          assert lines[k + 1] == tail[k];
        }
      }
      forall x | x in d.unlocked
        ensures exists k :: 0 <= k < |lines| && CrossMark !in lines[k] && CheckMark in lines[k] && FirstToken(lines[k]) == x
      {
        if x !in rest.unlocked {
          assert CrossMark !in lines[0] && CheckMark in lines[0] && FirstToken(lines[0]) == x;
        } else {
          var k :| 0 <= k < |tail| && CrossMark !in tail[k] && CheckMark in tail[k] && FirstToken(tail[k]) == x;
          assert lines[k + 1] == tail[k];
        }
      }
    }
  }

  /** What one line adds to each list, as membership. */
  lemma AddLineMembers(line: string, rest: AchievementData)
    ensures forall x :: x in AddLine(line, rest).locked <==>
      x in rest.locked || (CrossMark in line && x == FirstToken(line))
    ensures forall x :: x in AddLine(line, rest).unlocked <==>
      x in rest.unlocked || (CrossMark !in line && CheckMark in line && x == FirstToken(line))
  {
  }

  /** Line order is kept: parsing two blocks of lines gives the first
      block's ids followed by the second's, in each list. */
  lemma {:induction false} ParseLinesAppend(a: seq<string>, b: seq<string>)
    ensures ParseLines(a + b) == Concat(ParseLines(a), ParseLines(b))
    ensures ParseLines(a + b).locked == ParseLines(a).locked + ParseLines(b).locked
    ensures ParseLines(a + b).unlocked == ParseLines(a).unlocked + ParseLines(b).unlocked
    decreases |a|
  {
    if |a| == 0 {
      assert a + b == b;
      assert Concat(AchievementData([], []), ParseLines(b)) == ParseLines(b);
    } else {
      assert (a + b)[0] == a[0];
      assert (a + b)[1..] == a[1..] + b;
      ParseLinesAppend(a[1..], b);
      AddLineConcat(a[0], ParseLines(a[1..]), ParseLines(b));
    }
  }

  /** An id that fits on an `alist` line: no space, no line break, no mark. */
  predicate PlainId(id: string) {
    ' ' !in id && '\n' !in id && CrossMark !in id && CheckMark !in id
  }

  /** A reply listing the locked achievements, then the unlocked ones. */
  function Render(d: AchievementData): string {
    Join(Lines(d.locked, CrossMark) + Lines(d.unlocked, CheckMark), '\n')
  }

  function Lines(ids: seq<string>, mark: char): (lines: seq<string>)
    ensures |lines| == |ids|
    ensures forall k :: 0 <= k < |ids| ==> lines[k] == ids[k] + [' ', mark]
  {
    if |ids| == 0 then [] else [ids[0] + [' ', mark]] + Lines(ids[1..], mark)
  }

  lemma ParseMarkedLine(id: string, mark: char, rest: AchievementData)
    requires mark == CrossMark || mark == CheckMark
    requires PlainId(id)
    ensures mark == CrossMark ==> AddLine(id + [' ', mark], rest) == AchievementData(rest.unlocked, [id] + rest.locked)
    ensures mark == CheckMark ==> AddLine(id + [' ', mark], rest) == AchievementData([id] + rest.unlocked, rest.locked)
  {
    var line := id + [' ', mark];
    assert line[..|id|] == id;
    assert line[|id|] == ' ';
    assert IndexOf(line, ' ') == |id|;
    assert CrossMark in line <==> mark == CrossMark;
    assert CheckMark in line <==> mark == CheckMark;
  }

  lemma {:induction false} ParseLinesOfMarked(ids: seq<string>, mark: char)
    requires mark == CrossMark || mark == CheckMark
    requires forall k :: 0 <= k < |ids| ==> PlainId(ids[k])
    ensures mark == CrossMark ==> ParseLines(Lines(ids, mark)) == AchievementData([], ids)
    ensures mark == CheckMark ==> ParseLines(Lines(ids, mark)) == AchievementData(ids, [])
  {
    if |ids| > 0 {
      var lines := Lines(ids, mark);
      assert lines[1..] == Lines(ids[1..], mark);
      ParseLinesOfMarked(ids[1..], mark);
      var tail := ParseLines(lines[1..]);
      assert lines[0] == ids[0] + [' ', mark];
      ParseMarkedLine(ids[0], mark, tail);
      assert ParseLines(lines) == AddLine(lines[0], tail);
      assert ids == [ids[0]] + ids[1..];
    }
  }

  lemma LinesNoBreak(ids: seq<string>, mark: char)
    requires mark != '\n'
    requires forall k :: 0 <= k < |ids| ==> PlainId(ids[k])
    ensures forall k :: 0 <= k < |ids| ==> '\n' !in Lines(ids, mark)[k]
  {
    forall k | 0 <= k < |ids| ensures '\n' !in Lines(ids, mark)[k] {
      assert Lines(ids, mark)[k] == ids[k] + [' ', mark];
    }
  }

  /** No line of a rendered reply holds a line break. */
  lemma RenderedNoBreak(d: AchievementData)
    requires forall k :: 0 <= k < |d.locked| ==> PlainId(d.locked[k])
    requires forall k :: 0 <= k < |d.unlocked| ==> PlainId(d.unlocked[k])
    ensures var lines := Lines(d.locked, CrossMark) + Lines(d.unlocked, CheckMark);
      forall k :: 0 <= k < |lines| ==> '\n' !in lines[k]
  {
    var a := Lines(d.locked, CrossMark);
    var b := Lines(d.unlocked, CheckMark);
    LinesNoBreak(d.locked, CrossMark);
    LinesNoBreak(d.unlocked, CheckMark);
    forall k | 0 <= k < |a + b| ensures '\n' !in (a + b)[k] {
      if k < |a| {
        assert (a + b)[k] == a[k];
      } else {
        assert (a + b)[k] == b[k - |a|];
      }
    }
  }

  /** Joining lines that hold no line break and splitting them again
      parses like the lines themselves; an empty list of lines joins to
      "", which splits into one empty line that adds nothing. */
  lemma ParseJoined(lines: seq<string>)
    requires forall k :: 0 <= k < |lines| ==> '\n' !in lines[k]
    ensures ParseLines(Split(Join(lines, '\n'), '\n')) == ParseLines(lines)
  {
    if |lines| == 0 {
      assert Join(lines, '\n') == "";
      assert Split("", '\n') == [""];
      ParseOneLine("");
    } else {
      SplitJoin(lines, '\n');
    }
  }

  /** Reading back a rendered reply gives the same data, as long as every
      id is plain. */
  lemma RenderRoundTrip(d: AchievementData)
    requires forall k :: 0 <= k < |d.locked| ==> PlainId(d.locked[k])
    requires forall k :: 0 <= k < |d.unlocked| ==> PlainId(d.unlocked[k])
    ensures ParseAlist(Render(d)) == d
  {
    var a := Lines(d.locked, CrossMark);
    var b := Lines(d.unlocked, CheckMark);
    ParseLinesOfMarked(d.locked, CrossMark);
    ParseLinesOfMarked(d.unlocked, CheckMark);
    ParseLinesAppend(a, b);
    RenderedNoBreak(d);
    ParseJoined(a + b);
  }
}

=== FILE: common.dfy ===
/**
 Small shared vocabulary: an optional value standing for JavaScript's
 `undefined`, and the sequence facts (distinctness, first index, removal
 of one position) that the bot's array code relies on.
 */
module Common {

  /** `None` plays the part of `undefined`: a missing element, a failed
      remote call, a field that was never set. */
  datatype Option<+T> = None | Some(value: T)

  /** No element occurs twice. */
  predicate Distinct<T(==)>(s: seq<T>) {
    forall i, j :: 0 <= i < j < |s| ==> s[i] != s[j]
  }

  /** The elements of a sequence, as a set. */
  function Elems<T>(s: seq<T>): set<T> {
    set x | x in s
  }

  /** `Array.prototype.indexOf`: the first position of `x`, or -1. */
  function IndexOf<T(==)>(s: seq<T>, x: T): (i: int)
    ensures i == -1 <==> x !in s
    ensures i != -1 ==> 0 <= i < |s| && s[i] == x && x !in s[..i]
  {
    if |s| == 0 then -1
    else if s[0] == x then 0
    else
      var k := IndexOf(s[1..], x);
      assert s[1..][..if k == -1 then 0 else k] == s[1..if k == -1 then 1 else k + 1];
      if k == -1 then -1 else k + 1
  }

  /** `splice(i, 1)`: the sequence without position `i`, order kept. */
  function RemoveAt<T>(s: seq<T>, i: nat): (r: seq<T>)
    requires i < |s|
    ensures |r| == |s| - 1
    ensures multiset(r) + multiset{s[i]} == multiset(s)
    ensures forall k :: 0 <= k < i ==> r[k] == s[k]
    ensures forall k :: i <= k < |r| ==> r[k] == s[k + 1]
  {
    assert s == s[..i] + [s[i]] + s[i + 1..];
    s[..i] + s[i + 1..]
  }

  /** A sequence has at most as many distinct values as positions, and
      exactly as many when no value repeats. */
  lemma {:induction false} ElemsCard<T>(s: seq<T>)
    ensures |Elems(s)| <= |s|
    ensures |Elems(s)| == |s| <==> Distinct(s)
  {
    if |s| > 0 {
      var t := s[1..];
      ElemsCard(t);
      assert Elems(s) == {s[0]} + Elems(t);
      if s[0] in t {
        assert Elems(s) == Elems(t);
        var j :| 0 <= j < |t| && t[j] == s[0];
        assert s[0] == s[j + 1];
        assert !Distinct(s);
      } else {
        assert s[0] !in Elems(t);
        assert |Elems(s)| == |Elems(t)| + 1;
        if Distinct(t) {
          forall i, j | 0 <= i < j < |s| ensures s[i] != s[j] {
            if i == 0 {
              assert s[j] == t[j - 1];
            } else {
              assert s[i] == t[i - 1] && s[j] == t[j - 1];
            }
          }
        } else {
          var i, j :| 0 <= i < j < |t| && t[i] == t[j];
          assert s[i + 1] == s[j + 1];
        }
      }
    }
  }

  /** A duplicate-free sequence is a permutation of any other
      duplicate-free sequence of the same length that contains it. */
  lemma DistinctPermutation<T>(a: seq<T>, b: seq<T>)
    requires Distinct(a) && Distinct(b) && |a| == |b|
    requires forall x :: x in a ==> x in b
    ensures multiset(a) == multiset(b)
  {
    ElemsCard(a);
    ElemsCard(b);
    assert Elems(a) <= Elems(b);
    SubsetSameCard(Elems(a), Elems(b));
    DistinctMultiset(a);
    DistinctMultiset(b);
    forall x ensures multiset(a)[x] == multiset(b)[x] {
      assert x in a <==> x in Elems(a);
      assert x in b <==> x in Elems(b);
    }
  }

  lemma SubsetCard<T>(x: set<T>, y: set<T>)
    requires x <= y
    ensures |x| <= |y|
  {
    assert y == x + (y - x);
    assert x * (y - x) == {};
  }

  lemma SubsetSameCard<T>(x: set<T>, y: set<T>)
    requires x <= y && |x| == |y|
    ensures x == y
  {
    assert y == x + (y - x);
    assert x * (y - x) == {};
    assert |y - x| == 0;
  }

  /** Whatever a duplicate-free sequence contains at most once each is
      itself duplicate-free. */
  lemma SubMultisetDistinct<T>(a: seq<T>, b: seq<T>)
    requires Distinct(b) && multiset(a) <= multiset(b)
    ensures Distinct(a)
  {
    DistinctMultiset(b);
    forall i, j | 0 <= i < j < |a| ensures a[i] != a[j] {
      var x := a[i];
      assert a == a[..i] + [x] + a[i + 1..j] + [a[j]] + a[j + 1..];
      assert multiset(a)[x] >= 1 + multiset([a[j]])[x];
      assert multiset(b)[x] <= 1;
    }
  }

  /** A duplicate-free sequence counts each of its elements once. */
  lemma {:induction false} DistinctMultiset<T>(s: seq<T>)
    requires Distinct(s)
    ensures forall x :: multiset(s)[x] == if x in s then 1 else 0
  {
    if |s| > 0 {
      var t := s[1..];
      assert s == [s[0]] + t;
      assert Distinct(t) by {
        forall i, j | 0 <= i < j < |t| ensures t[i] != t[j] {
          assert t[i] == s[i + 1] && t[j] == s[j + 1];
        }
      }
      DistinctMultiset(t);
      assert s[0] !in t by {
        forall j | 0 <= j < |t| ensures t[j] != s[0] {
          assert t[j] == s[j + 1];
        }
      }
      forall x ensures multiset(s)[x] == if x in s then 1 else 0 {
        assert multiset(s)[x] == multiset([s[0]])[x] + multiset(t)[x];
        assert x in s <==> x == s[0] || x in t;
      }
    }
  }
}

=== FILE: config.dfy ===
/**
 The per-bot configuration record (`saveConfig` / `loadConfig` in
 class/ASFBot.js): a fixed "personality" drawn once when no stored record
 exists, and the playtime left before the next unlock. File access and JSON
 encoding are not modelled: the stored record is a value, `None` when the
 file does not exist.
 */
module BotConfig {
  import opened Common
  import opened Draws
  import opened DaysOff

  /** The six fields written by `saveConfig`, all hours except the factor
      and the probability; `daysOff` holds weekday numbers, Sunday = 0. */
  datatype ConfigRecord = ConfigRecord(
    globalRandomAchievementFactor: real,
    remainingPlaytime: real,
    activeHoursDuration: real,
    activeHoursOffset: real,
    daysOffProbability: real,
    daysOff: seq<int>)

  /** The values the fresh branch of `loadConfig` draws, in source order;
      `initialRemaining` is the result of `getTimeToNextAchievement`. */
  datatype FreshDraws = FreshDraws(
    factor: real,
    initialRemaining: real,
    duration: real,
    offset: real,
    probability: real,
    dayCount: real,
    days: seq<real>)

  predicate ValidDraws(d: FreshDraws) {
    && IsDraw(d.factor) && IsDraw(d.duration) && IsDraw(d.offset)
    && IsDraw(d.probability) && IsDraw(d.dayCount)
    && |d.days| >= 3
    && forall k :: 0 <= k < |d.days| ==> IsDraw(d.days[k])
  }

  /** The ranges a freshly created personality falls in. */
  predicate FreshRanges(c: ConfigRecord) {
    && 0.75 <= c.globalRandomAchievementFactor < 1.25
    && 2.0 <= c.activeHoursDuration < 8.0
    && 0.0 <= c.activeHoursOffset < 24.0
    && 0.0 <= c.daysOffProbability < 0.5
    && |c.daysOff| <= 3 && Distinct(c.daysOff)
    && forall d :: d in c.daysOff ==> 0 <= d <= 6
  }

  /** `loadConfig`: a stored record is taken field by field; otherwise a
      new personality is drawn and the caller writes it (`created`). */
  method LoadConfig(stored: Option<ConfigRecord>, draws: FreshDraws) returns (c: ConfigRecord, created: bool)
    requires ValidDraws(draws)
    ensures created <==> stored.None?
    ensures stored.Some? ==> c == stored.value
    ensures stored.None? ==> FreshRanges(c) && c.remainingPlaytime == draws.initialRemaining
  {
    if stored.Some? {
      var s := stored.value;
      c := ConfigRecord(s.globalRandomAchievementFactor, s.remainingPlaytime, s.activeHoursDuration,
                        s.activeHoursOffset, s.daysOffProbability, s.daysOff);
      created := false;
    } else {
      var factor := RandomFloatBetween(0.75, 1.25, draws.factor);
      var duration := RandomFloatBetween(2.0, 8.0, draws.duration);
      var offset := RandomFloatBetween(0.0, 24.0, draws.offset);
      var probability := RandomFloatBetween(0.0, 1.0, draws.probability) / 2.0;
      var daysOff := DrawDaysOff(draws.dayCount, draws.days);
      c := ConfigRecord(factor, draws.initialRemaining, duration, offset, probability, daysOff);
      created := true;
    }
  }

  /** What one decrement of the session loop persists: the same record
      with only `remainingPlaytime` replaced. */
  function WithRemaining(c: ConfigRecord, remaining: real): (c': ConfigRecord)
    ensures c'.remainingPlaytime == remaining
    ensures SamePersonality(c, c')
  {
    c.(remainingPlaytime := remaining)
  }

  /** Every field but `remainingPlaytime` agrees. */
  predicate SamePersonality(a: ConfigRecord, b: ConfigRecord) {
    a == b.(remainingPlaytime := a.remainingPlaytime)
  }
}

=== FILE: days_off.dfy ===
/**
 The fixed weekly days off drawn when a bot's configuration is first created
 (`loadConfig` in class/ASFBot.js): between 0 and 3 weekdays, Sunday = 0,
 drawn without replacement from `[0, 1, 2, 3, 4, 5, 6]`.
 */
module DaysOff {
  import opened Common
  import opened Draws

  /** The weekdays, in the order the source lists them. */
  const AllDays: seq<int> := [0, 1, 2, 3, 4, 5, 6]

  lemma AllDaysDistinct()
    ensures Distinct(AllDays)
  {
  }

  /** The days-off loop. `countDraw` is the draw behind `numberOfDaysOff`,
      `dayDraws[i]` the one behind the i-th `randomDayIndex`. The days
      taken out of `availableDays` and the days left in it always make up
      the week exactly once; every index drawn is inside `availableDays`. */
  method DrawDaysOff(countDraw: real, dayDraws: seq<real>) returns (daysOff: seq<int>)
    requires IsDraw(countDraw)
    requires |dayDraws| >= RandomIntBetween(0, 3, countDraw)
    requires forall k :: 0 <= k < |dayDraws| ==> IsDraw(dayDraws[k])
    ensures |daysOff| == RandomIntBetween(0, 3, countDraw) <= 3
    ensures Distinct(daysOff)
    ensures forall d :: d in daysOff ==> 0 <= d <= 6
  {
    var numberOfDaysOff := RandomIntBetween(0, 3, countDraw);
    var availableDays := AllDays;
    daysOff := [];
    var i := 0;
    while i < numberOfDaysOff
      invariant 0 <= i <= numberOfDaysOff
      invariant |daysOff| == i && |availableDays| == 7 - i
      invariant multiset(availableDays) + multiset(daysOff) == multiset(AllDays)
    {
      var randomDayIndex := RandomIntBetween(0, |availableDays| - 1, dayDraws[i]);
      MoveDay(availableDays, daysOff, randomDayIndex);
      daysOff := daysOff + [availableDays[randomDayIndex]];
      availableDays := RemoveAt(availableDays, randomDayIndex);
      i := i + 1;
    }
    FromTheWeek(availableDays, daysOff);
  }

  /** Moving one day from the available list to the days off keeps the
      two together equal to what they were. */
  lemma MoveDay(available: seq<int>, taken: seq<int>, i: nat)
    requires i < |available|
    ensures multiset(RemoveAt(available, i)) + multiset(taken + [available[i]])
         == multiset(available) + multiset(taken)
  {
    assert multiset(taken + [available[i]]) == multiset(taken) + multiset{available[i]};
  }

  /** Days taken from the week without putting any back are distinct
      weekdays. */
  lemma FromTheWeek(available: seq<int>, taken: seq<int>)
    requires multiset(available) + multiset(taken) == multiset(AllDays)
    ensures Distinct(taken)
    ensures forall d :: d in taken ==> 0 <= d <= 6
  {
    assert multiset(taken) <= multiset(AllDays);
    AllDaysDistinct();
    SubMultisetDistinct(taken, AllDays);
    forall d | d in taken ensures 0 <= d <= 6 {
      assert d in multiset(taken);
      assert d in multiset(AllDays);
    }
  }
}

=== FILE: draws.dfy ===
/**
 The bot's two random helpers (class/ASFBot.js, `randomFloatBetween` and
 `randomIntBetween`), with the value of `Math.random()` passed in as `r`,
 a real in [0, 1).
 */
module Draws {

  /** A value of `Math.random()`. */
  predicate IsDraw(r: real) {
    0.0 <= r < 1.0
  }

  lemma ScaleBelow(r: real, k: real)
    requires IsDraw(r) && k > 0.0
    ensures 0.0 <= r * k < k
  {
    assert (1.0 - r) * k > 0.0;
  }

  lemma ScaleWithin(r: real, k: real)
    requires IsDraw(r) && k >= 0.0
    ensures 0.0 <= r * k <= k
    ensures k > 0.0 ==> r * k < k
  {
    if k > 0.0 {
      ScaleBelow(r, k);
    } else {
      assert k == 0.0;
    }
  }

  /** The floor of a draw `x` scaled by `size` is an index in [0, size),
      or 0 when `size` is 0, and it brackets the scaled draw. */
  lemma DrawFloor(r: real, size: nat, x: real)
    requires IsDraw(r) && x == r * size as real
    ensures size > 0 ==> 0 <= x.Floor < size
    ensures size == 0 ==> x.Floor == 0
    ensures x.Floor as real <= x < (x.Floor + 1) as real
  {
    ScaledWithin(r, size as real, x);
    FloorIndex(x, size);
  }

  lemma ScaledWithin(r: real, k: real, x: real)
    requires IsDraw(r) && k >= 0.0 && x == r * k
    ensures 0.0 <= x <= k
    ensures k > 0.0 ==> x < k
  {
    ScaleWithin(r, k);
  }

  /** The floor of a real in [0, size] is an index in [0, size], and below
      `size` when the real is. */
  lemma FloorIndex(x: real, size: nat)
    requires 0.0 <= x <= size as real
    ensures x.Floor as real <= x < (x.Floor + 1) as real
    ensures 0 <= x.Floor <= size
    ensures x < size as real ==> x.Floor < size
  {
    FloorBounds(x);
  }

  /** Adding a whole number moves the floor by that number. */
  lemma FloorShift(x: real, m: int)
    ensures (x + m as real).Floor == x.Floor + m
  {
    FloorBounds(x);
    FloorBounds(x + m as real);
  }

  lemma FloorBounds(x: real)
    ensures x.Floor as real <= x < (x.Floor + 1) as real
  {
  }

  /** `Math.floor(Math.random() * (max - min + 1) + min)`: both bounds are
      reachable, so the result lies in the CLOSED range [min, max]. */
  function RandomIntBetween(min: int, max: int, r: real): (k: int)
    requires IsDraw(r)
    requires min <= max
    ensures min <= k <= max
    ensures (k - min) as real <= r * (max - min + 1) as real < (k - min + 1) as real
  {
    var n := max - min + 1;
    var x := r * n as real;
    DrawFloor(r, n, x);
    FloorShift(x, min);
    (x + min as real).Floor
  }

  /** The draw falls in the j-th of `n` equal parts of [0, 1). */
  predicate InPart(j: int, n: nat, r: real) {
    j as real <= r * n as real < (j + 1) as real
  }

  /** `randomIntBetween(0, max)`, the form the bot's selection uses: the
      result is the part of the draw among max + 1 equal parts. */
  lemma RandomIntFromZero(max: nat, r: real)
    requires IsDraw(r)
    ensures var k := RandomIntBetween(0, max, r);
      0 <= k <= max && InPart(k, max + 1, r)
  {
  }

  /** The upper bound is drawn exactly when `r` falls in the top
      1/(max - min + 1) of [0, 1). */
  lemma RandomIntHitsMax(min: int, max: int, r: real)
    requires IsDraw(r) && min <= max
    ensures RandomIntBetween(min, max, r) == max <==> r * (max - min + 1) as real >= (max - min) as real
  {
  }

  /** `Math.random() * (max - min) + min`: within [min, max), or exactly
      `min` when the range is a single point. */
  function RandomFloatBetween(min: real, max: real, r: real): (x: real)
    requires IsDraw(r)
    ensures min <= max ==> min <= x <= max
    ensures min < max ==> x < max
  {
    var width := max - min;
    if width >= 0.0 then ScaleWithin(r, width); r * width + min
    else r * width + min
  }
}

=== FILE: order.dfy ===
/**
 The reference unlock order of test/achievementOrder.js: repeatedly pick one
 of the most common 20% of the achievements not yet scheduled, until every
 achievement is scheduled. Each `Math.random()` value is an element of
 `draws`, consumed one per round.
 */
module AchievementOrder {
  import opened Common
  import opened Draws
  import opened Achievements
  import opened Selection

  /** `id` is a possible pick once `taken` is scheduled: it belongs to a
      listed achievement not yet scheduled, and fewer than the slice size of
      the remaining achievements are strictly more common than it. */
  ghost predicate FromTop(stats: seq<Achievement>, taken: seq<string>, id: string) {
    exists a :: a in stats && a.id == id && id !in taken &&
      CountAbove(Remaining(stats, taken), a.rare) < SliceSize(|Remaining(stats, taken)|)
  }

  /** `generateAchievementOrder`. The loop runs once per listed achievement
      and yields a permutation of their ids, each drawn from the top slice
      of what is left, exactly when the ids are distinct; with a repeated
      id it runs out of candidates and `undefined.id` throws (None). */
  method GenerateAchievementOrder(stats: seq<Achievement>, draws: seq<real>) returns (order: Option<seq<string>>)
    requires |draws| >= |stats|
    requires forall k :: 0 <= k < |draws| ==> IsDraw(draws[k])
    ensures order.Some? <==> Distinct(Ids(stats))
    ensures order.Some? ==> |order.value| == |stats| && Distinct(order.value)
    ensures order.Some? ==> multiset(order.value) == multiset(Ids(stats))
    ensures order.Some? ==> forall k :: 0 <= k < |stats| ==> FromTop(stats, order.value[..k], order.value[k])
  {
    var ids := Ids(stats);
    var bot: seq<string> := [];
    while |bot| < |stats|
      invariant |bot| <= |stats|
      invariant Distinct(bot)
      invariant forall x :: x in bot ==> x in ids
      invariant forall k :: 0 <= k < |bot| ==> FromTop(stats, bot[..k], bot[k])
      decreases |stats| - |bot|
    {
      var pick := NextAchievement(stats, bot, draws[|bot|]);
      if pick.None? {
        Stuck(stats, bot);
        return None;
      }
      bot := Extend(stats, bot, pick.value);
    }
    Complete(stats, bot);
    order := Some(bot);
  }

  /** Every listed id already scheduled, with room left: some id repeats. */
  lemma Stuck(stats: seq<Achievement>, bot: seq<string>)
    requires Distinct(bot) && |bot| < |stats|
    requires !exists k :: 0 <= k < |stats| && stats[k].id !in bot
    ensures !Distinct(Ids(stats))
  {
    var ids := Ids(stats);
    forall x | x in ids ensures x in bot {
      var k :| 0 <= k < |ids| && ids[k] == x;
      assert stats[k].id == x;
    }
    assert Elems(ids) <= Elems(bot);
    SubsetCard(Elems(ids), Elems(bot));
    ElemsCard(bot);
    ElemsCard(ids);
  }

  /** As many distinct scheduled ids as listed achievements: the listed ids
      are distinct and the schedule is a permutation of them. */
  lemma Complete(stats: seq<Achievement>, bot: seq<string>)
    requires Distinct(bot) && |bot| == |stats|
    requires forall x :: x in bot ==> x in Ids(stats)
    ensures Distinct(Ids(stats))
    ensures multiset(bot) == multiset(Ids(stats))
  {
    var ids := Ids(stats);
    assert Elems(bot) <= Elems(ids);
    SubsetCard(Elems(bot), Elems(ids));
    ElemsCard(bot);
    ElemsCard(ids);
    DistinctPermutation(bot, ids);
  }

  /** `botAchievements.push(randomAchievement.id)` keeps the loop invariant. */
  function Extend(stats: seq<Achievement>, bot: seq<string>, a: Achievement): (bot': seq<string>)
    requires Distinct(bot)
    requires forall x :: x in bot ==> x in Ids(stats)
    requires forall k :: 0 <= k < |bot| ==> FromTop(stats, bot[..k], bot[k])
    requires a in stats && a.id !in bot
    requires CountAbove(Remaining(stats, bot), a.rare) < SliceSize(|Remaining(stats, bot)|)
    ensures |bot'| == |bot| + 1 && bot'[..|bot|] == bot && bot'[|bot|] == a.id
    ensures Distinct(bot')
    ensures forall x :: x in bot' ==> x in Ids(stats)
    ensures forall k :: 0 <= k < |bot'| ==> FromTop(stats, bot'[..k], bot'[k])
  {
    var bot' := bot + [a.id];
    IdListed(stats, a);
    PushKeepsTop(stats, bot, a);
    assert bot'[..|bot|] == bot;
    bot'
  }

  lemma PushKeepsTop(stats: seq<Achievement>, bot: seq<string>, a: Achievement)
    requires forall k :: 0 <= k < |bot| ==> FromTop(stats, bot[..k], bot[k])
    requires a in stats && a.id !in bot
    requires CountAbove(Remaining(stats, bot), a.rare) < SliceSize(|Remaining(stats, bot)|)
    ensures forall k :: 0 <= k < |bot| + 1 ==> FromTop(stats, (bot + [a.id])[..k], (bot + [a.id])[k])
  {
    PrefixesKept(stats, bot, a.id);
    var bot' := bot + [a.id];
    assert bot'[..|bot|] == bot && bot'[|bot|] == a.id;
    assert FromTop(stats, bot, a.id);
  }

  lemma IdListed(stats: seq<Achievement>, a: Achievement)
    requires a in stats
    ensures a.id in Ids(stats)
  {
    var k :| 0 <= k < |stats| && stats[k] == a;
    assert Ids(stats)[k] == a.id;
  }

  /** Pushing onto the schedule leaves every earlier round as it was. */
  lemma PrefixesKept(stats: seq<Achievement>, bot: seq<string>, id: string)
    requires forall k :: 0 <= k < |bot| ==> FromTop(stats, bot[..k], bot[k])
    ensures forall k :: 0 <= k < |bot| ==> FromTop(stats, (bot + [id])[..k], (bot + [id])[k])
  {
    forall k | 0 <= k < |bot| ensures FromTop(stats, (bot + [id])[..k], (bot + [id])[k]) {
      assert (bot + [id])[..k] == bot[..k];
      assert (bot + [id])[k] == bot[k];
    }
  }
}

=== FILE: rate_limiter.dfy ===
/**
 The per-address rate limiter of class/rateLimiter.js, used one call at a
 time: `requestTimestamps` is a map from address to the time of its last
 grant, in integer milliseconds. A call reads the clock (`now`), waits the
 computed delay, reads the clock again (`grant`) and stores that second
 reading. The promise queue and the timers themselves are not modelled.
 */
module RateLimiter {

  /** DELAY_DURATION_MS: one request per address every 10 seconds. */
  const DelayMs: int := 10000

  type Timestamps = map<string, int>

  /** `if (this.requestTimestamps[ip])`: a stored 0 reads as "no previous
      request", exactly like a missing entry. */
  predicate HasPrevious(ts: Timestamps, ip: string) {
    ip in ts && ts[ip] != 0
  }

  /** The wait before a request for `ip` arriving at `now` is granted: none
      without a previous grant or when 10 seconds have passed since it;
      otherwise whatever is missing to 10 seconds, at most 10 seconds when
      the clock has not gone backwards. Either way the request is not let
      through before 10 seconds after the previous grant. */
  function Delay(ts: Timestamps, ip: string, now: int): (wait: nat)
    ensures !HasPrevious(ts, ip) ==> wait == 0
    ensures HasPrevious(ts, ip) && now - ts[ip] >= DelayMs ==> wait == 0
    ensures HasPrevious(ts, ip) && now - ts[ip] < DelayMs ==> wait > 0
    ensures HasPrevious(ts, ip) && now >= ts[ip] ==> wait <= DelayMs
    ensures HasPrevious(ts, ip) ==> now + wait >= ts[ip] + DelayMs
    ensures HasPrevious(ts, ip) && wait > 0 ==> now + wait == ts[ip] + DelayMs
  {
    if HasPrevious(ts, ip) then
      var timeDifference := now - ts[ip];
      if timeDifference < DelayMs then DelayMs - timeDifference else 0
    else 0
  }

  /** `limit(ip)`: the wait, and the map afterwards, in which `ip` holds the
      grant time (the clock read after the wait, not the request time) and
      every other address is as it was. */
  function Limit(ts: Timestamps, ip: string, now: int, grant: int): (r: (nat, Timestamps))
    requires grant >= now + Delay(ts, ip, now)
    ensures r.0 == Delay(ts, ip, now)
    ensures r.1.Keys == ts.Keys + {ip} && r.1[ip] == grant
    ensures forall other :: other in ts && other != ip ==> r.1[other] == ts[other]
    ensures HasPrevious(ts, ip) ==> grant - ts[ip] >= DelayMs
  {
    (Delay(ts, ip, now), ts[ip := grant])
  }

  /** One call: the address, the clock when it starts, the clock after its
      wait. */
  datatype Request = Request(ip: string, now: int, grant: int)

  /** The map after the first `k` calls, starting from an empty one. */
  function StateAfter(reqs: seq<Request>, k: nat): Timestamps
    requires k <= |reqs|
  {
    if k == 0 then map[] else StateAfter(reqs, k - 1)[reqs[k - 1].ip := reqs[k - 1].grant]
  }

  /** Calls made one after another: every clock reading is positive (as
      `Date.now()` is), the clock does not run backwards within a call, and
      each call starts after the previous one returned. */
  ghost predicate Ordered(reqs: seq<Request>) {
    && (forall k :: 0 <= k < |reqs| ==> 0 < reqs[k].now <= reqs[k].grant)
    && (forall k :: 0 < k < |reqs| ==> reqs[k].now >= reqs[k - 1].grant)
  }

  /** ... and each call is granted no earlier than its wait allows. */
  ghost predicate Sequential(reqs: seq<Request>) {
    && Ordered(reqs)
    && forall k :: 0 <= k < |reqs| ==>
         reqs[k].grant >= reqs[k].now + Delay(StateAfter(reqs, k), reqs[k].ip, reqs[k].now)
  }

  lemma {:induction false} GrantsOrdered(reqs: seq<Request>, i: nat, j: nat)
    requires Ordered(reqs) && i <= j < |reqs|
    ensures reqs[i].grant <= reqs[j].grant
    decreases j
  {
    if i < j {
      GrantsOrdered(reqs, i, j - 1);
      assert reqs[j].grant >= reqs[j].now >= reqs[j - 1].grant;
    }
  }

  /** After `k` calls, an address that was served holds a positive time no
      earlier than any of its grants so far. */
  lemma {:induction false} LastGrantStored(reqs: seq<Request>, k: nat, i: nat)
    requires Ordered(reqs) && i < k <= |reqs|
    ensures reqs[i].ip in StateAfter(reqs, k)
    ensures StateAfter(reqs, k)[reqs[i].ip] >= reqs[i].grant > 0
  {
    if reqs[k - 1].ip == reqs[i].ip {
      GrantsOrdered(reqs, i, k - 1);
    } else {
      LastGrantStored(reqs, k - 1, i);
    }
  }

  /** In sequential use, any two grants for the same address are at least
      10 seconds apart. */
  lemma GrantsSpaced(reqs: seq<Request>, i: nat, j: nat)
    requires Sequential(reqs) && i < j < |reqs|
    requires reqs[i].ip == reqs[j].ip
    ensures reqs[j].grant - reqs[i].grant >= DelayMs
  {
    LastGrantStored(reqs, j, i);
  }

  lemma {:induction false} UnseenAddress(reqs: seq<Request>, k: nat, ip: string)
    requires k <= |reqs|
    requires forall i :: 0 <= i < k ==> reqs[i].ip != ip
    ensures ip !in StateAfter(reqs, k)
  {
    if k > 0 {
      UnseenAddress(reqs, k - 1, ip);
    }
  }

  /** An address's first call never waits, whatever other addresses did:
      different addresses do not hold each other up. */
  lemma FirstCallNoWait(reqs: seq<Request>, k: nat)
    requires k < |reqs|
    requires forall i :: 0 <= i < k ==> reqs[i].ip != reqs[k].ip
    ensures Delay(StateAfter(reqs, k), reqs[k].ip, reqs[k].now) == 0
  {
    UnseenAddress(reqs, k, reqs[k].ip);
  }
}

=== FILE: schedule.dfy ===
/**
 The decisions of `startGamingLoop` in class/ASFBot.js, one loop iteration
 at a time: on a new calendar date, decide whether today is a day off; then
 play only inside the daily active window and not on a day off. The clock
 reading (`getDate`, `getDay`, `getHours`) and the day-off draw of each
 iteration are parameters; the sleeps between iterations are not modelled.
 */
module Schedule {
  import opened Common
  import opened Draws
  import opened BotConfig

  /** JavaScript's `x % 24` on numbers: the remainder keeps the sign of `x`
      and is smaller than 24 in size. */
  function Rem24(x: real): (r: real)
    ensures x >= 0.0 ==> 0.0 <= r < 24.0
    ensures x < 0.0 ==> -24.0 < r <= 0.0
  {
    if x >= 0.0 then x - 24.0 * (x / 24.0).Floor as real
    else -(-x - 24.0 * (-x / 24.0).Floor as real)
  }

  /** ... and differs from `x` by a whole number of 24-hour days; with the
      sign and size bounds this pins the remainder down. */
  lemma Rem24Multiple(x: real)
    ensures (x - Rem24(x)) / 24.0 == ((x - Rem24(x)) / 24.0).Floor as real
  {
    var q := if x >= 0.0 then (x / 24.0).Floor else -((-x / 24.0).Floor);
    assert x - Rem24(x) == 24.0 * q as real;
    WholeDays(q);
  }

  lemma WholeDays(q: int)
    ensures (24.0 * q as real) / 24.0 == q as real
  {
  }

  /** `((hour - activeHoursOffset + 24) % 24) < activeHoursDuration`. */
  predicate IsActiveHour(hour: int, offset: real, duration: real) {
    Rem24(hour as real - offset + 24.0) < duration
  }

  /** The active window is [offset, offset + duration) on the 24-hour
      dial, wrapping past midnight: an hour is active when it lies in the
      window that day, or, before the offset, in the part that spills over
      from the previous day. */
  lemma ActiveWindow(hour: int, offset: real, duration: real)
    requires 0 <= hour < 24 && 0.0 <= offset < 24.0
    ensures IsActiveHour(hour, offset, duration) <==>
      || (offset <= hour as real && hour as real < offset + duration)
      || (hour as real < offset && hour as real + 24.0 < offset + duration)
  {
    var x := hour as real - offset + 24.0;
    if hour as real >= offset {
      assert (x / 24.0).Floor == 1;
    } else {
      assert (x / 24.0).Floor == 0;
    }
  }

  /** A window from 22:00 lasting four hours covers 23:00 and 01:00 but
      not 10:00. */
  lemma ActiveWindowExample()
    ensures IsActiveHour(23, 22.0, 4.0)
    ensures IsActiveHour(1, 22.0, 4.0)
    ensures !IsActiveHour(10, 22.0, 4.0)
  {
    ActiveWindow(23, 22.0, 4.0);
    ActiveWindow(1, 22.0, 4.0);
    ActiveWindow(10, 22.0, 4.0);
  }

  /** One reading of `new Date()`: day of month, weekday (Sunday = 0) and
      hour, all local time. */
  datatype Clock = Clock(date: int, weekday: int, hour: int)

  /** The loop's `currentDay` (None until the first iteration) and
      `isDayOff`. */
  datatype DayState = DayState(currentDay: Option<int>, isDayOff: bool)

  const Start := DayState(None, false)

  /** Lines 252-256: only when the date differs from `currentDay` is the
      day-off flag redrawn, true on a fixed day off or when the draw falls
      under `daysOffProbability`; on the same date nothing changes. */
  function NewDay(st: DayState, now: Clock, draw: real, c: ConfigRecord): (st': DayState)
    ensures st'.currentDay == Some(now.date)
    ensures st.currentDay == Some(now.date) ==> st' == st
    ensures st.currentDay != Some(now.date) ==>
      (st'.isDayOff <==> now.weekday in c.daysOff || draw < c.daysOffProbability)
  {
    if st.currentDay != Some(now.date) then
      DayState(Some(now.date), now.weekday in c.daysOff || draw < c.daysOffProbability)
    else st
  }

  /** Line 261: a play session starts in this iteration. */
  predicate StartsSession(st: DayState, now: Clock, c: ConfigRecord) {
    IsActiveHour(now.hour, c.activeHoursOffset, c.activeHoursDuration) && !st.isDayOff
  }

  /** The day state after the first `k` iterations, `draws[i]` being the
      `Math.random()` of iteration `i` (used only on a new date). */
  function StateAfter(c: ConfigRecord, clocks: seq<Clock>, draws: seq<real>, k: nat): DayState
    requires k <= |clocks| && k <= |draws|
  {
    if k == 0 then Start
    else NewDay(StateAfter(c, clocks, draws, k - 1), clocks[k - 1], draws[k - 1], c)
  }

  /** Whether iteration `k` plays. */
  predicate PlaysAt(c: ConfigRecord, clocks: seq<Clock>, draws: seq<real>, k: nat)
    requires k < |clocks| && k < |draws|
  {
    StartsSession(StateAfter(c, clocks, draws, k + 1), clocks[k], c)
  }

  /** Consecutive readings with the same day of month fall on the same
      weekday: the loop never sleeps for a whole month at a time. */
  ghost predicate Consecutive(clocks: seq<Clock>) {
    forall k :: 0 < k < |clocks| && clocks[k].date == clocks[k - 1].date ==>
      clocks[k].weekday == clocks[k - 1].weekday
  }

  lemma {:induction false} FixedDayOffState(c: ConfigRecord, clocks: seq<Clock>, draws: seq<real>, k: nat)
    requires Consecutive(clocks)
    requires 0 < k <= |clocks| && k <= |draws|
    ensures StateAfter(c, clocks, draws, k).currentDay == Some(clocks[k - 1].date)
    ensures clocks[k - 1].weekday in c.daysOff ==> StateAfter(c, clocks, draws, k).isDayOff
  {
    if k > 1 {
      FixedDayOffState(c, clocks, draws, k - 1);
    }
  }

  /** A weekday listed in `daysOff` never starts a session, whatever the
      hour and the draws. */
  lemma FixedDayOffNeverPlays(c: ConfigRecord, clocks: seq<Clock>, draws: seq<real>, k: nat)
    requires Consecutive(clocks)
    requires k < |clocks| && k < |draws|
    requires clocks[k].weekday in c.daysOff
    ensures !PlaysAt(c, clocks, draws, k)
  {
    FixedDayOffState(c, clocks, draws, k + 1);
  }

  lemma {:induction false} NoChanceDayOffState(c: ConfigRecord, clocks: seq<Clock>, draws: seq<real>, k: nat)
    requires Consecutive(clocks) && c.daysOffProbability <= 0.0
    requires forall i :: 0 <= i < |draws| ==> IsDraw(draws[i])
    requires 0 < k <= |clocks| && k <= |draws|
    ensures StateAfter(c, clocks, draws, k).currentDay == Some(clocks[k - 1].date)
    ensures StateAfter(c, clocks, draws, k).isDayOff <==> clocks[k - 1].weekday in c.daysOff
  {
    if k > 1 {
      NoChanceDayOffState(c, clocks, draws, k - 1);
    }
  }

  /** With no chance of an extra day off, an iteration plays exactly when
      its hour is active and its weekday is not a fixed day off. */
  lemma NoChanceDayOffPlays(c: ConfigRecord, clocks: seq<Clock>, draws: seq<real>, k: nat)
    requires Consecutive(clocks) && c.daysOffProbability <= 0.0
    requires forall i :: 0 <= i < |draws| ==> IsDraw(draws[i])
    requires k < |clocks| && k < |draws|
    ensures PlaysAt(c, clocks, draws, k) <==>
      IsActiveHour(clocks[k].hour, c.activeHoursOffset, c.activeHoursDuration)
      && clocks[k].weekday !in c.daysOff
  {
    NoChanceDayOffState(c, clocks, draws, k + 1);
  }
}

=== FILE: selection.dfy ===
/**
 Choosing which locked achievement to unlock next: a uniformly drawn member
 of the most common 20% of the remaining ones. Two versions exist in the
 repository. The bot's (class/ASFBot.js) draws its index with the inclusive
 `randomIntBetween(0, size)` and so can step one past the slice; the order
 generator's (test/achievementOrder.js) uses the half-open
 `Math.floor(r * size)`. Both are modelled: a play session uses the bot's,
 the reference order generator the half-open one.
 */
module Selection {
  import opened Common
  import opened Draws
  import opened Achievements

  /** `Math.floor(n * 0.2)`, raised to 1 when something remains: the
      largest `k` with `5 * k <= n`, or 1 when that is 0 and `n > 0`. */
  function SliceSize(n: nat): (size: nat)
    ensures n == 0 ==> size == 0
    ensures n > 0 ==> 1 <= size <= n
    ensures n >= 5 ==> 5 * size <= n < 5 * (size + 1)
    ensures 0 < n < 5 ==> size == 1
  {
    var size := n / 5;
    if n > 0 && size == 0 then 1 else size
  }

  /** `topAchievements[randomIntBetween(0, topAchievements.length)]` from
      class/ASFBot.js: the index may equal the slice length, and reading
      there yields `undefined` (None). A pick is entry j of the slice for a
      draw in [j/(size + 1), (j + 1)/(size + 1)). */
  function SelectAsWritten(achievements: seq<Achievement>, r: real): (pick: Option<Achievement>)
    requires IsDraw(r)
    ensures pick.Some? ==> pick.value in achievements[..SliceSize(|achievements|)]
    ensures pick.Some? ==>
      var size := SliceSize(|achievements|);
      exists j :: 0 <= j < size && InPart(j, size + 1, r) && pick == Some(achievements[j])
  {
    var top := achievements[..SliceSize(|achievements|)];
    var k := RandomIntBetween(0, |top|, r);
    RandomIntFromZero(|top|, r);
    if k < |top| then
      assert top[k] == achievements[k];
      Some(top[k])
    else None
  }

  /** The draw lands on the extra index `size` that the inclusive
      `randomIntBetween(0, size)` adds past the end of a slice of `size`. */
  predicate Overshoots(size: nat, r: real) {
    r * (size + 1) as real >= size as real
  }

  /** The as-written selection returns `undefined` exactly for the draws in
      the top 1/(size + 1) of [0, 1), whatever the list. */
  lemma AsWrittenMisses(achievements: seq<Achievement>, r: real)
    requires IsDraw(r)
    ensures SelectAsWritten(achievements, r) == None <==> Overshoots(SliceSize(|achievements|), r)
  {
    var size := SliceSize(|achievements|);
    RandomIntHitsMax(0, size, r);
  }

  /** A single locked achievement and a draw of 0.5 give index 1 of a
      one-element slice: nothing is selected although one remains. */
  lemma AsWrittenMissExample()
    ensures SelectAsWritten([Achievement("1", "First", 90.0)], 0.5) == None
  {
    assert RandomIntBetween(0, 1, 0.5) == 1;
  }

  /** `Math.floor(r * size)`: the draw falls in the k-th of `size` equal
      parts of [0, 1), so every index of a non-empty slice is drawn for a
      share 1/size of the draws and nothing outside it is. */
  function TopIndex(size: nat, r: real): (k: int)
    requires IsDraw(r)
    ensures size > 0 ==> 0 <= k < size
    ensures size == 0 ==> k == 0
    ensures k as real <= r * size as real < (k + 1) as real
  {
    var x := r * size as real;
    DrawFloor(r, size, x);
    x.Floor
  }

  /** The selection of test/achievementOrder.js, with the half-open index:
      it selects something exactly when the list is non-empty, always from
      the slice, and the first entry when fewer than five remain. Which
      entry is picked depends on the draw only: entry j of the slice for a
      draw in [j/size, (j+1)/size). */
  function SelectTop(achievements: seq<Achievement>, r: real): (pick: Option<Achievement>)
    requires IsDraw(r)
    ensures pick.Some? <==> |achievements| > 0
    ensures pick.Some? ==> pick.value in achievements[..SliceSize(|achievements|)]
    ensures 0 < |achievements| < 5 ==> pick == Some(achievements[0])
    ensures |achievements| > 0 ==>
      var size := SliceSize(|achievements|);
      exists j :: 0 <= j < size && j as real <= r * size as real < (j + 1) as real && pick == Some(achievements[j])
  {
    var size := SliceSize(|achievements|);
    var top := achievements[..size];
    var k := TopIndex(size, r);
    if k < size then
      assert top[k] == achievements[k];
      assert k as real <= r * size as real < (k + 1) as real;
      Some(top[k])
    else None
  }

  /** `getNextAchievement` of class/ASFBot.js (filter, sort, select), with
      the corrected index. Something is chosen exactly when some listed
      achievement is not yet unlocked; the choice is such an achievement,
      and fewer than `SliceSize` remaining ones are strictly more common. */
  function NextAchievement(stats: seq<Achievement>, unlocked: seq<string>, r: real): (pick: Option<Achievement>)
    requires IsDraw(r)
    ensures pick.Some? <==> exists k :: 0 <= k < |stats| && stats[k].id !in unlocked
    ensures pick.Some? ==> pick.value in stats && pick.value.id !in unlocked
    ensures pick.Some? ==>
      var locked := Remaining(stats, unlocked);
      CountAbove(locked, pick.value.rare) < SliceSize(|locked|)
  {
    var locked := Remaining(stats, unlocked);
    var sorted := SortByRarity(locked);
    var pick := SelectTop(sorted, r);
    LockedNonEmpty(stats, unlocked);
    if pick.Some? then
      var k :| 0 <= k < SliceSize(|sorted|) && sorted[k] == pick.value;
      assert pick.value in multiset(sorted);
      assert multiset(locked)[pick.value] > 0;
      SortedRank(sorted, k);
      CountAboveSort(locked, pick.value.rare);
      pick
    else
      pick
  }

  /** The filtered list is empty exactly when every listed id is taken. */
  lemma LockedNonEmpty(stats: seq<Achievement>, taken: seq<string>)
    ensures |Remaining(stats, taken)| > 0 <==> exists k :: 0 <= k < |stats| && stats[k].id !in taken
  {
    var locked := Remaining(stats, taken);
    if k :| 0 <= k < |stats| && stats[k].id !in taken {
      assert multiset(stats)[stats[k]] > 0;
      assert multiset(locked)[stats[k]] > 0;
    }
    if |locked| > 0 {
      var a := locked[0];
      assert multiset(locked)[a] > 0;
      assert a in stats;
      var k :| 0 <= k < |stats| && stats[k] == a;
    }
  }

  /** `getNextAchievement` exactly as class/ASFBot.js writes it. */
  function NextAsWritten(stats: seq<Achievement>, unlocked: seq<string>, r: real): (pick: Option<Achievement>)
    requires IsDraw(r)
    ensures pick.Some? ==> pick.value in stats && pick.value.id !in unlocked
    ensures pick.Some? ==>
      var locked := Remaining(stats, unlocked);
      CountAbove(locked, pick.value.rare) < SliceSize(|locked|)
  {
    var locked := Remaining(stats, unlocked);
    var pick := SelectAsWritten(SortByRarity(locked), r);
    AsWrittenRank(locked, r);
    if pick.Some? then
      assert multiset(locked)[pick.value] > 0;
      pick
    else
      pick
  }

  /** Whatever the bot's selection picks from the sorted list is one of its
      entries, with fewer than the slice size strictly more common. */
  lemma AsWrittenRank(locked: seq<Achievement>, r: real)
    requires IsDraw(r)
    ensures var pick := SelectAsWritten(SortByRarity(locked), r);
      pick.Some? ==> pick.value in multiset(locked) && CountAbove(locked, pick.value.rare) < SliceSize(|locked|)
  {
    var sorted := SortByRarity(locked);
    SortedLength(locked);
    SliceRank(sorted, r);
    var pick := SelectAsWritten(sorted, r);
    if pick.Some? {
      assert pick.value in multiset(sorted);
      CountAboveSort(locked, pick.value.rare);
    }
  }

  /** From a rarity-ordered list the bot's selection picks an entry with
      fewer than the slice size strictly more common. */
  lemma SliceRank(sorted: seq<Achievement>, r: real)
    requires IsDraw(r) && ByRarity(sorted)
    ensures var pick := SelectAsWritten(sorted, r);
      pick.Some? ==> pick.value in sorted && CountAbove(sorted, pick.value.rare) < SliceSize(|sorted|)
  {
    var pick := SelectAsWritten(sorted, r);
    if pick.Some? {
      var top := sorted[..SliceSize(|sorted|)];
      var k :| 0 <= k < |top| && top[k] == pick.value;
      assert sorted[k] == pick.value;
      SortedRank(sorted, k);
    }
  }

  /** The bot's `getNextAchievement` comes back `undefined` exactly for the
      draws in the top 1/(size + 1) of [0, 1), where size is the slice of
      what is still locked; once every listed id is unlocked (size 0) that
      is every draw. */
  lemma NextAsWrittenMisses(stats: seq<Achievement>, unlocked: seq<string>, r: real)
    requires IsDraw(r)
    ensures NextAsWritten(stats, unlocked, r).None? <==> Overshoots(SliceSize(|Remaining(stats, unlocked)|), r)
    ensures (forall k :: 0 <= k < |stats| ==> stats[k].id in unlocked) ==> NextAsWritten(stats, unlocked, r).None?
  {
    var locked := Remaining(stats, unlocked);
    var sorted := SortByRarity(locked);
    SortedLength(locked);
    AsWrittenMisses(sorted, r);
    assert NextAsWritten(stats, unlocked, r) == SelectAsWritten(sorted, r);
    NothingLeft(stats, unlocked, r);
  }

  lemma SortedLength(s: seq<Achievement>)
    ensures |SortByRarity(s)| == |s|
  {
    var t := SortByRarity(s);
    assert |t| == |multiset(t)| == |multiset(s)| == |s|;
  }

  lemma NothingLeft(stats: seq<Achievement>, unlocked: seq<string>, r: real)
    requires IsDraw(r)
    ensures (forall k :: 0 <= k < |stats| ==> stats[k].id in unlocked) ==> NextAsWritten(stats, unlocked, r).None?
  {
    var pick := NextAsWritten(stats, unlocked, r);
    if pick.Some? {
      var k :| 0 <= k < |stats| && stats[k] == pick.value;
    }
  }

  /** With one achievement still locked, the bot as written can come back
      with nothing to unlock; the corrected selection cannot. */
  lemma NextAsWrittenMissExample()
    ensures var stats := [Achievement("1", "First", 90.0)];
      && NextAsWritten(stats, [], 0.5) == None
      && NextAchievement(stats, [], 0.5) == Some(stats[0])
  {
    var stats := [Achievement("1", "First", 90.0)];
    assert Remaining(stats, []) == stats;
    assert SortByRarity(stats) == stats;
    AsWrittenMissExample();
  }
}

=== FILE: session.dfy ===
/**
 One play session (`startGame`, `playGame`, `stopGame` in class/ASFBot.js).
 Each reply from the command endpoint is a parameter (None when the
 command failed and returned `undefined`), as is every `Math.random()`
 value and each result of `getTimeToNextAchievement`. The sleeps are not
 modelled; only their order and the state they leave behind are.
 */
module Session {
  import opened Common
  import opened Draws
  import opened Strings
  import opened Achievements
  import opened Selection
  import opened Alist
  import opened Unlock
  import opened BotConfig

  /** The game the bot plays (CSGO_APPID). */
  const AppId: nat := 730

  /** The acknowledgement `startGame` waits for. */
  function PlayAck(bot: string, appId: nat): string {
    "<" + bot + "> Playing selected gameIDs: " + NatToString(appId)
  }

  /** The acknowledgement `stopGame` waits for. */
  function DoneAck(bot: string): string {
    "<" + bot + "> Done!"
  }

  /** `startGame`: the flag is raised only on the exact acknowledgement;
      any other reply throws before the flag is touched (`acked` false). */
  function StartGame(bot: string, appId: nat, reply: Option<string>, playing: bool): (r: (bool, bool))
    ensures r.0 <==> reply == Some(PlayAck(bot, appId))
    ensures r.0 ==> r.1
    ensures !r.0 ==> r.1 == playing
  {
    if reply == Some(PlayAck(bot, appId)) then (true, true) else (false, playing)
  }

  /** `stopGame`: the flag is lowered only on the exact acknowledgement. */
  function StopGame(bot: string, reply: Option<string>, playing: bool): (r: (bool, bool))
    ensures r.0 <==> reply == Some(DoneAck(bot))
    ensures r.0 ==> !r.1
    ensures !r.0 ==> r.1 == playing
  {
    if reply == Some(DoneAck(bot)) then (true, false) else (false, playing)
  }

  /** The two acknowledgements never coincide, so neither reply can be
      taken for the other. */
  lemma AcksDiffer(bot: string, appId: nat)
    ensures PlayAck(bot, appId) != DoneAck(bot)
  {
    var p := PlayAck(bot, appId);
    var d := DoneAck(bot);
    assert p[|bot| + 3] == 'P';
    assert d[|bot| + 3] == 'D';
  }

  /** A start and a stop that are both acknowledged leave the bot not
      playing; an unacknowledged stop leaves a started bot playing, which is
      what the shutdown handler looks at. */
  lemma StartStop(bot: string, stopReply: Option<string>)
    ensures var started := StartGame(bot, AppId, Some(PlayAck(bot, AppId)), false).1;
      && started
      && (stopReply == Some(DoneAck(bot)) ==> !StopGame(bot, stopReply, started).1)
      && (stopReply != Some(DoneAck(bot)) ==> StopGame(bot, stopReply, started).1)
  {
  }

  /** Chunk bounds: 30 and 90 seconds, in hours. */
  const MinChunk: real := 0.00833
  const MaxChunk: real := 0.025

  function Chunk(r: real): (c: real)
    requires IsDraw(r)
    ensures MinChunk <= c < MaxChunk
  {
    RandomFloatBetween(MinChunk, MaxChunk, r)
  }

  /** The bot's state as far as a session reads and writes it. */
  datatype Bot = Bot(name: string, config: ConfigRecord, data: Option<AchievementData>, isPlaying: bool)

  /** What the world supplies for the n-th unlock attempt of a session: the
      `alist` reply, the selection draw, the `aset` reply, the fresh time to
      the next achievement and the draw for the new chunk size. */
  datatype Attempt = Attempt(alist: Option<string>, pick: real, aset: Option<string>, nextTime: real, chunkDraw: real)

  /** Replies to the `play` and `reset` commands. */
  datatype Replies = Replies(start: Option<string>, stop: Option<string>)

  /** One loop iteration: playtime left before it, the chunk it subtracted,
      the value saved, whether it tried an unlock, the chunk it then added
      to `elapsed`, the achievement data after it, and whether the unlock
      attempt threw. */
  datatype Step = Step(before: real, chunk: real, saved: real, attempted: bool, advance: real,
                       data: Option<AchievementData>, crashed: bool)

  /** How `playGame` ended: normally, or by an exception escaping it (no
      local data, nothing selected, or no reply to `aset`). */
  datatype Ending = Finished | Crashed

  /** What a session starts from and what the world supplies during it:
      the playtime left, the first chunk, the achievement data, the
      statistics, and the inputs of the n-th unlock attempt. */
  datatype Setting = Setting(start: real, firstChunk: real, data: Option<AchievementData>,
                             stats: seq<Achievement>, attempts: nat -> Attempt)

  /** Simulated time covered by the iterations, `elapsed` in the source. */
  function Elapsed(steps: seq<Step>): real {
    if |steps| == 0 then 0.0 else Elapsed(steps[..|steps| - 1]) + steps[|steps| - 1].advance
  }

  /** How many of the iterations tried an unlock. */
  function Attempts(steps: seq<Step>): nat {
    if |steps| == 0 then 0
    else Attempts(steps[..|steps| - 1]) + (if steps[|steps| - 1].attempted then 1 else 0)
  }

  ghost predicate ValidAttempts(attempts: nat -> Attempt) {
    forall n: nat :: IsDraw(attempts(n).pick) && IsDraw(attempts(n).chunkDraw)
  }

  /** Playtime left when the iteration after `steps` starts: the saved
      value, or the fresh time to the next achievement after an attempt. */
  function NextBefore(start: real, attempts: nat -> Attempt, steps: seq<Step>): real {
    if |steps| == 0 then start
    else
      var last := steps[|steps| - 1];
      if last.attempted then attempts(Attempts(steps[..|steps| - 1])).nextTime else last.saved
  }

  /** Chunk size when the iteration after `steps` starts. */
  function NextChunk(firstChunk: real, steps: seq<Step>): real {
    if |steps| == 0 then firstChunk else steps[|steps| - 1].advance
  }

  /** Achievement data when the iteration after `steps` starts. */
  function NextData(data: Option<AchievementData>, steps: seq<Step>): Option<AchievementData> {
    if |steps| == 0 then data else steps[|steps| - 1].data
  }

  /** What one iteration does, given what the earlier ones did. It
      subtracts its chunk and saves the result (so at most one chunk, under
      90 seconds, is ever unsaved); it tries an unlock exactly when the
      saved value is at most 0, and the attempt is `AttemptUnlock` on the
      data left by the earlier iterations. The data changes only through
      an attempt; one that throws ends the iteration without advancing,
      and one that does not redraws the chunk. */
  ghost predicate StepFollows(w: Setting, earlier: seq<Step>, s: Step)
    requires ValidAttempts(w.attempts)
  {
    var a := w.attempts(Attempts(earlier));
    && s.before == NextBefore(w.start, w.attempts, earlier)
    && s.chunk == NextChunk(w.firstChunk, earlier)
    && s.saved == s.before - s.chunk
    && MinChunk <= s.chunk < MaxChunk
    && (s.attempted <==> s.saved <= 0.0)
    && (!s.attempted ==> s.advance == s.chunk && s.data == NextData(w.data, earlier) && !s.crashed)
    && (s.attempted ==> (s.data, s.crashed) == AttemptUnlock(NextData(w.data, earlier), w.stats, a))
    && (s.attempted && !s.crashed ==> s.advance == Chunk(a.chunkDraw))
    && (s.crashed ==> s.advance == 0.0)
  }

  ghost predicate StepsFollow(w: Setting, steps: seq<Step>)
    requires ValidAttempts(w.attempts)
  {
    forall k :: 0 <= k < |steps| ==> StepFollows(w, steps[..k], steps[k])
  }

  lemma FollowExtend(w: Setting, steps: seq<Step>, s: Step)
    requires ValidAttempts(w.attempts)
    requires StepsFollow(w, steps)
    requires StepFollows(w, steps, s)
    ensures StepsFollow(w, steps + [s])
  {
    var steps' := steps + [s];
    assert steps'[..|steps|] == steps;
    forall k | 0 <= k < |steps| ensures steps'[..k] == steps[..k] && steps'[k] == steps[k] {
    }
  }

  /** With less playtime left than the first chunk, the first iteration
      tries an unlock; if the fresh time to the next one is at least a
      chunk, the second iteration does not. */
  lemma SmallRemainderUnlocksFirst(w: Setting, steps: seq<Step>)
    requires ValidAttempts(w.attempts)
    requires StepsFollow(w, steps)
    requires |steps| > 0 && w.start <= w.firstChunk
    ensures steps[0].attempted
    ensures |steps| > 1 && w.attempts(0).nextTime >= MaxChunk ==> !steps[1].attempted
  {
    assert StepFollows(w, steps[..0], steps[0]);
    if |steps| > 1 {
      assert StepFollows(w, steps[..1], steps[1]);
      assert steps[..1][..0] == [];
    }
  }

  /** The unlock attempt of one iteration (lines 211-216): refresh the
      data, select with the bot's inclusive index, send `aset`. It throws
      when there is no data to filter, when the selection comes back
      `undefined` (line 213 reads its `id`), or when `aset` gets no reply.
      The selection is `undefined` exactly for the draws in the top
      1/(size + 1) of [0, 1), which covers every draw once nothing is left
      locked (size 0). */
  function AttemptUnlock(data: Option<AchievementData>, stats: seq<Achievement>, a: Attempt)
    : (r: (Option<AchievementData>, bool))
    requires IsDraw(a.pick)
    ensures r.0.Some? <==> data.Some? || a.alist.Some?
    ensures var refreshed := UpdateAchievementsStatus(data, a.alist);
      r.1 <==> (|| refreshed.None?
                || Overshoots(SliceSize(|Remaining(stats, refreshed.value.unlocked)|), a.pick)
                || a.aset.None?)
    ensures var refreshed := UpdateAchievementsStatus(data, a.alist);
      refreshed.Some? && (forall k :: 0 <= k < |stats| ==> stats[k].id in refreshed.value.unlocked) ==> r.1
    ensures var refreshed := UpdateAchievementsStatus(data, a.alist);
      !r.1 ==> && r.0.Some?
               && refreshed.value.unlocked <= r.0.value.unlocked
               && |r.0.value.unlocked| <= |refreshed.value.unlocked| + 1
    ensures var refreshed := UpdateAchievementsStatus(data, a.alist);
      !r.1 ==> || r.0.value == refreshed.value
               || exists x :: && x in stats && x.id !in refreshed.value.unlocked
                              && r.0.value.unlocked == refreshed.value.unlocked + [x.id]
                              && var locked := Remaining(stats, refreshed.value.unlocked);
                                 CountAbove(locked, x.rare) < SliceSize(|locked|)
    ensures var refreshed := UpdateAchievementsStatus(data, a.alist);
      !r.1 ==> (|r.0.value.unlocked| > |refreshed.value.unlocked| <==> Contains(a.aset.value, SuccessMessage))
    ensures var refreshed := UpdateAchievementsStatus(data, a.alist);
      !r.1 && Consistent(refreshed.value) ==> Consistent(r.0.value)
  {
    var refreshed := UpdateAchievementsStatus(data, a.alist);
    if refreshed.None? then (refreshed, true)
    else
      NextAsWrittenMisses(stats, refreshed.value.unlocked, a.pick);
      var pick := NextAsWritten(stats, refreshed.value.unlocked, a.pick);
      if pick.None? then (refreshed, true)
      else
        var u := UnlockAchievement(refreshed.value, pick.value.id, a.aset);
        UnlockSelected(refreshed.value, pick.value, a.aset);
        (Some(u.1), u.0 == NoReply)
  }

  /** Sending `aset` for an achievement whose id is not yet unlocked: the
      unlocked list grows by that id exactly on success, and consistent
      data stays consistent. */
  lemma UnlockSelected(d: AchievementData, x: Achievement, reply: Option<string>)
    requires x.id !in d.unlocked
    ensures var u := UnlockAchievement(d, x.id, reply);
      && d.unlocked <= u.1.unlocked
      && (u.1 == d || u.1.unlocked == d.unlocked + [x.id])
      && (reply.Some? ==> (|u.1.unlocked| > |d.unlocked| <==> Contains(reply.value, SuccessMessage)))
      && (Consistent(d) ==> Consistent(u.1))
  {
    var u := UnlockAchievement(d, x.id, reply);
    assert d.unlocked <= u.1.unlocked;
    if Consistent(d) {
      UnlockKeepsConsistent(d, x.id, reply);
    }
  }

  /** Line 213 as written: one achievement still locked, no fresh `alist`
      reply, a draw of 0.5 and a successful `aset` reply. The draw selects
      index 1 of a one-element slice and the attempt throws. */
  lemma AttemptUnlockMissExample()
    ensures var stats := [Achievement("1", "First", 90.0)];
      AttemptUnlock(Some(AchievementData([], ["1"])), stats, Attempt(None, 0.5, Some("Success!"), 1.0, 0.0)).1
  {
    var stats := [Achievement("1", "First", 90.0)];
    assert Remaining(stats, []) == stats;
  }

  /** The same attempt with a draw of 0.4 selects the achievement and
      unlocks it. */
  lemma AttemptUnlockHitExample()
    ensures var stats := [Achievement("1", "First", 90.0)];
      AttemptUnlock(Some(AchievementData([], ["1"])), stats, Attempt(None, 0.4, Some("Success!"), 1.0, 0.0))
        == (Some(AchievementData(["1"], [])), false)
  {
    var stats := [Achievement("1", "First", 90.0)];
    var d := AchievementData([], ["1"]);
    assert Remaining(stats, []) == stats;
    assert SortByRarity(stats) == stats;
    assert RandomIntBetween(0, 1, 0.4) == 0;
    assert NextAsWritten(stats, [], 0.4) == Some(stats[0]);
    assert OccursAt("Success!", SuccessMessage, 0);
    var u := UnlockAchievement(d, "1", Some("Success!"));
    assert u.0 == Unlocked;
    assert multiset(u.1.locked) == multiset{};
    assert u.1 == AchievementData(["1"], []);
  }

  /** One iteration of the loop of `playGame` (lines 198-225), after the
      iterations `steps`: subtract the chunk and save (lines 202-205); when
      the saved value is at most 0, attempt an unlock (lines 208-216), and
      unless that throws, redraw the chunk (line 223). */
  function NextStep(w: Setting, steps: seq<Step>): (s: Step)
    requires ValidAttempts(w.attempts)
    requires MinChunk <= NextChunk(w.firstChunk, steps) < MaxChunk
    ensures StepFollows(w, steps, s)
  {
    var before := NextBefore(w.start, w.attempts, steps);
    var chunk := NextChunk(w.firstChunk, steps);
    var data := NextData(w.data, steps);
    if before - chunk <= 0.0 then
      var a := w.attempts(Attempts(steps));
      var (data', crashed) := AttemptUnlock(data, w.stats, a);
      Step(before, chunk, before - chunk, true, if crashed then 0.0 else Chunk(a.chunkDraw), data', crashed)
    else
      Step(before, chunk, before - chunk, false, chunk, data, false)
  }

  /** `playGame(appId, playTime)`. Besides the final bot it returns the
      iterations it ran and how it ended. The playtime left afterwards is
      what the next iteration would have started from, or, after a crash,
      the value saved just before it. Only the last iteration can throw,
      and the session ends by an exception exactly when it does; the data
      is what the last iteration left, and stays as it was unless an
      unlock was attempted. */
  method PlayGame(bot: Bot, stats: seq<Achievement>, playTime: real, chunkDraw: real,
                  replies: Replies, attempts: nat -> Attempt)
    returns (bot': Bot, steps: seq<Step>, ending: Ending)
    requires IsDraw(chunkDraw) && ValidAttempts(attempts)
    ensures bot'.name == bot.name
    ensures SamePersonality(bot.config, bot'.config)
    ensures StepsFollow(Setting(bot.config.remainingPlaytime, Chunk(chunkDraw), bot.data, stats, attempts), steps)
    ensures forall k :: 0 <= k < |steps| ==> Elapsed(steps[..k]) < playTime
    ensures playTime > 0.0 ==> |steps| > 0
    ensures ending == Finished ==> Elapsed(steps) >= playTime
    ensures ending == Finished ==>
      bot'.config.remainingPlaytime == NextBefore(bot.config.remainingPlaytime, attempts, steps)
    ensures ending == Crashed ==> |steps| > 0 && steps[|steps| - 1].attempted
    ensures ending == Crashed <==> |steps| > 0 && steps[|steps| - 1].crashed
    ensures forall k :: 0 <= k < |steps| - 1 ==> !steps[k].crashed
    ensures bot'.data == NextData(bot.data, steps)
    ensures ending == Crashed ==> bot'.config.remainingPlaytime == steps[|steps| - 1].saved
    ensures Attempts(steps) == 0 ==> bot'.data == bot.data
    ensures var started := StartGame(bot.name, AppId, replies.start, bot.isPlaying).1;
      && (ending == Finished ==> bot'.isPlaying == StopGame(bot.name, replies.stop, started).1)
      && (ending == Crashed ==> bot'.isPlaying == started)
  {
    var started := StartGame(bot.name, AppId, replies.start, bot.isPlaying).1;
    var w := Setting(bot.config.remainingPlaytime, Chunk(chunkDraw), bot.data, stats, attempts);
    var config;
    config, steps, ending := PlayLoop(w, bot.config, playTime);
    NoAttemptKeepsData(w, steps);
    if ending == Crashed {
      bot' := Bot(bot.name, config, NextData(bot.data, steps), started);
    } else {
      var stopped := StopGame(bot.name, replies.stop, started).1;
      bot' := Bot(bot.name, config, NextData(bot.data, steps), stopped);
    }
  }

  /** The loop of `playGame` (lines 198-225), saving the remaining
      playtime into `config` after every chunk. It stops when `elapsed`
      reaches `playTime` or when an unlock attempt throws, and only the
      last iteration can have thrown. */
  method PlayLoop(w: Setting, config0: ConfigRecord, playTime: real)
    returns (config: ConfigRecord, steps: seq<Step>, ending: Ending)
    requires ValidAttempts(w.attempts)
    requires MinChunk <= w.firstChunk < MaxChunk && config0.remainingPlaytime == w.start
    ensures SamePersonality(config0, config)
    ensures StepsFollow(w, steps)
    ensures forall k :: 0 <= k < |steps| ==> Elapsed(steps[..k]) < playTime
    ensures playTime > 0.0 ==> |steps| > 0
    ensures ending == Finished ==> Elapsed(steps) >= playTime
    ensures ending == Finished ==> config.remainingPlaytime == NextBefore(w.start, w.attempts, steps)
    ensures ending == Crashed <==> |steps| > 0 && steps[|steps| - 1].crashed
    ensures ending == Crashed ==> steps[|steps| - 1].attempted
    ensures ending == Crashed ==> config.remainingPlaytime == steps[|steps| - 1].saved
    ensures forall k :: 0 <= k < |steps| - 1 ==> !steps[k].crashed
  {
    config := config0;
    var elapsed := 0.0;
    steps := [];
    while elapsed < playTime
      invariant MinChunk <= NextChunk(w.firstChunk, steps) < MaxChunk
      invariant config.remainingPlaytime == NextBefore(w.start, w.attempts, steps)
      invariant SamePersonality(config0, config)
      invariant elapsed == Elapsed(steps)
      invariant forall k :: 0 <= k < |steps| ==> Elapsed(steps[..k]) < playTime
      invariant StepsFollow(w, steps)
      invariant forall k :: 0 <= k < |steps| ==> !steps[k].crashed
      decreases ((playTime - elapsed) / MinChunk).Floor
    {
      var s := NextStep(w, steps);
      config := WithRemaining(config, s.saved);
      FollowExtend(w, steps, s);
      if s.crashed {
        steps := Record(steps, s);
        ending := Crashed;
        return;
      }
      if s.attempted {
        config := WithRemaining(config, w.attempts(Attempts(steps)).nextTime);
      }
      steps := Record(steps, s);
      elapsed := elapsed + s.advance;
    }
    ending := Finished;
  }

  /** Without an unlock attempt the achievement data is the one the
      session started with. */
  lemma {:induction false} NoAttemptKeepsData(w: Setting, steps: seq<Step>)
    requires ValidAttempts(w.attempts)
    requires StepsFollow(w, steps)
    ensures Attempts(steps) == 0 ==> NextData(w.data, steps) == w.data
    decreases |steps|
  {
    if |steps| > 0 && Attempts(steps) == 0 {
      var p := steps[..|steps| - 1];
      forall k | 0 <= k < |p| ensures StepFollows(w, p[..k], p[k]) {
        assert p[..k] == steps[..k] && p[k] == steps[k];
      }
      NoAttemptKeepsData(w, p);
      assert StepFollows(w, p, steps[|steps| - 1]);
    }
  }

  /** Appending one iteration; the totals of the earlier ones stay put. */
  function Record(steps: seq<Step>, s: Step): (steps': seq<Step>)
    ensures steps' == steps + [s]
    ensures Elapsed(steps') == Elapsed(steps) + s.advance
    ensures Attempts(steps') == Attempts(steps) + (if s.attempted then 1 else 0)
    ensures forall k :: 0 <= k <= |steps| ==> steps'[..k] == steps[..k]
  {
    assert (steps + [s])[..|steps|] == steps;
    steps + [s]
  }
}

=== FILE: strings.dfy ===
/**
 The JavaScript string operations the bot applies to the text it gets back
 from the command endpoint: `includes`, `split` on one character, `join`,
 and the decimal rendering of a number inside a template string.
 */
module Strings {
  import opened Common

  /** `sub` occurs at position `i` of `s`. */
  ghost predicate OccursAt(s: string, sub: string, i: int) {
    0 <= i && i + |sub| <= |s| && s[i..i + |sub|] == sub
  }

  /** `String.prototype.includes`: `sub` is a contiguous piece of `s`. */
  predicate Contains(s: string, sub: string)
    ensures Contains(s, sub) <==> exists i :: OccursAt(s, sub, i)
    decreases |s|
  {
    if |sub| <= |s| && s[..|sub|] == sub then
      assert OccursAt(s, sub, 0);
      true
    else if |s| == 0 then
      assert forall i :: !OccursAt(s, sub, i);
      false
    else
      var rest := Contains(s[1..], sub);
      assert forall i :: OccursAt(s[1..], sub, i) <==> OccursAt(s, sub, i + 1);
      assert !OccursAt(s, sub, 0);
      assert forall i :: OccursAt(s, sub, i) ==> i == 0 || OccursAt(s[1..], sub, i - 1);
      rest
  }

  /** `s.split(sep)` for a one-character separator: the pieces between
      separators, at least one, none containing the separator. */
  function Split(s: string, sep: char): (pieces: seq<string>)
    ensures |pieces| >= 1
    ensures forall k :: 0 <= k < |pieces| ==> sep !in pieces[k]
    decreases |s|
  {
    var i := IndexOf(s, sep);
    if i == -1 then [s] else [s[..i]] + Split(s[i + 1..], sep)
  }

  /** `pieces.join(sep)`. */
  function Join(pieces: seq<string>, sep: char): string {
    if |pieces| == 0 then ""
    else if |pieces| == 1 then pieces[0]
    else pieces[0] + [sep] + Join(pieces[1..], sep)
  }

  /** Joining then splitting gives the pieces back when none of them
      holds the separator. */
  lemma {:induction false} SplitJoin(pieces: seq<string>, sep: char)
    requires |pieces| >= 1
    requires forall k :: 0 <= k < |pieces| ==> sep !in pieces[k]
    ensures Split(Join(pieces, sep), sep) == pieces
  {
    var p := pieces[0];
    if |pieces| == 1 {
      assert IndexOf(p, sep) == -1;
    } else {
      var rest := pieces[1..];
      assert pieces == [p] + rest;
      JoinCons(p, rest, sep);
      SplitAfterPrefix(p, sep, Join(rest, sep));
      SplitJoin(rest, sep);
    }
  }

  /** Splitting then joining gives the string back. */
  lemma {:induction false} JoinSplit(s: string, sep: char)
    ensures Join(Split(s, sep), sep) == s
    decreases |s|
  {
    var i := IndexOf(s, sep);
    if i != -1 {
      var rest := Split(s[i + 1..], sep);
      assert Split(s, sep) == [s[..i]] + rest;
      JoinSplit(s[i + 1..], sep);
      JoinCons(s[..i], rest, sep);
      assert s == s[..i] + [sep] + s[i + 1..];
    }
  }

  lemma JoinCons(p: string, rest: seq<string>, sep: char)
    requires |rest| >= 1
    ensures Join([p] + rest, sep) == p + [sep] + Join(rest, sep)
  {
    assert ([p] + rest)[1..] == rest;
  }

  lemma SplitAfterPrefix(p: string, sep: char, t: string)
    requires sep !in p
    ensures Split(p + [sep] + t, sep) == [p] + Split(t, sep)
  {
    var s := p + [sep] + t;
    IndexAfterPrefix(p, sep, t);
    assert s[..|p|] == p;
    assert s[|p| + 1..] == t;
  }

  lemma IndexAfterPrefix(p: string, sep: char, t: string)
    requires sep !in p
    ensures IndexOf(p + [sep] + t, sep) == |p|
  {
    var s := p + [sep] + t;
    assert s[..|p|] == p;
    assert s[|p|] == sep;
  }

  /** The first space-separated token of a line: `line.split(' ')[0]`. */
  function FirstToken(line: string): (tok: string)
    ensures ' ' !in tok
    ensures |tok| <= |line| && tok == line[..|tok|]
    ensures |tok| < |line| ==> line[|tok|] == ' '
  {
    var i := IndexOf(line, ' ');
    if i == -1 then line else line[..i]
  }

  /** Decimal digits of a natural number, as a template string shows it. */
  function NatToString(n: nat): (s: string)
    ensures |s| >= 1
    ensures forall k :: 0 <= k < |s| ==> '0' <= s[k] <= '9'
  {
    if n < 10 then [Digit(n)] else NatToString(n / 10) + [Digit(n % 10)]
  }

  function Digit(d: nat): (c: char)
    requires d < 10
    ensures '0' <= c <= '9'
  {
    ['0', '1', '2', '3', '4', '5', '6', '7', '8', '9'][d]
  }
}

=== FILE: unlock.dfy ===
/**
 `unlockAchievement` of class/ASFBot.js: send `aset`, classify the reply,
 and on success move the id from locked to unlocked in the local data.
 */
module Unlock {
  import opened Common
  import opened Strings
  import opened Alist

  const SuccessMessage := "Success!"

  function AlreadyUnlockedMessage(id: string): string {
    "Achievement #" + id + " is already unlocked"
  }

  /** How the reply was read. `NoReply` is a failed command: its result is
      `undefined`, `response.includes` throws, and the error leaves
      `unlockAchievement` before anything is changed. */
  datatype Outcome = Unlocked | AlreadyUnlocked | Unexpected | NoReply

  /** `locked.indexOf(id)` followed by `splice(index, 1)` when found: the
      first occurrence goes, everything else stays in order. */
  function RemoveFirst(s: seq<string>, x: string): (r: seq<string>)
    ensures x !in s ==> r == s
    ensures x in s ==> |r| == |s| - 1 && multiset(r) == multiset(s) - multiset{x}
    ensures x in s ==> r[..IndexOf(s, x)] == s[..IndexOf(s, x)]
    ensures x in s ==> r[IndexOf(s, x)..] == s[IndexOf(s, x) + 1..]
  {
    var i := IndexOf(s, x);
    if i == -1 then s
    else
      var r := RemoveAt(s, i);
      assert r[..i] == s[..i];
      assert r[i..] == s[i + 1..];
      r
  }

  /** From a duplicate-free list, removing `x` removes it entirely and
      leaves a duplicate-free list of former members. */
  lemma RemoveFirstDistinct(s: seq<string>, x: string)
    requires Distinct(s)
    ensures Distinct(RemoveFirst(s, x))
    ensures x !in RemoveFirst(s, x)
    ensures forall y :: y in RemoveFirst(s, x) ==> y in s
  {
    var r := RemoveFirst(s, x);
    assert multiset(r) <= multiset(s);
    SubMultisetDistinct(r, s);
    forall y | y in r ensures y in s {
      assert y in multiset(r);
    }
    if x in s {
      DistinctMultiset(s);
      assert multiset(r)[x] == 0;
    }
  }

  /** The success message is tested first, then the already-unlocked
      message; the data changes only on success. */
  function UnlockAchievement(d: AchievementData, id: string, reply: Option<string>): (r: (Outcome, AchievementData))
    ensures r.0 == NoReply <==> reply.None?
    ensures r.0 == Unlocked <==> reply.Some? && Contains(reply.value, SuccessMessage)
    ensures r.0 == AlreadyUnlocked <==>
      reply.Some? && !Contains(reply.value, SuccessMessage) && Contains(reply.value, AlreadyUnlockedMessage(id))
    ensures r.0 == Unlocked ==>
      && r.1.unlocked == d.unlocked + [id]
      && multiset(r.1.locked) == multiset(d.locked) - multiset{id}
      && |r.1.locked| == |d.locked| - (if id in d.locked then 1 else 0)
    ensures r.0 != Unlocked ==> r.1 == d
  {
    if reply.None? then (NoReply, d)
    else if Contains(reply.value, SuccessMessage) then
      (Unlocked, AchievementData(d.unlocked + [id], RemoveFirst(d.locked, id)))
    else if Contains(reply.value, AlreadyUnlockedMessage(id)) then (AlreadyUnlocked, d)
    else (Unexpected, d)
  }

  /** No id is listed twice and none is both locked and unlocked. */
  predicate Consistent(d: AchievementData) {
    && Distinct(d.unlocked) && Distinct(d.locked)
    && forall x :: x in d.locked ==> x !in d.unlocked
  }

  /** Unlocking an id that is not yet unlocked keeps the data consistent:
      the id ends up unlocked once and is no longer locked. */
  lemma UnlockKeepsConsistent(d: AchievementData, id: string, reply: Option<string>)
    requires Consistent(d) && id !in d.unlocked
    ensures Consistent(UnlockAchievement(d, id, reply).1)
    ensures UnlockAchievement(d, id, reply).0 == Unlocked ==>
      var d' := UnlockAchievement(d, id, reply).1;
      id in d'.unlocked && id !in d'.locked
  {
    var (o, d') := UnlockAchievement(d, id, reply);
    if o == Unlocked {
      assert d'.locked == RemoveFirst(d.locked, id);
      RemoveFirstDistinct(d.locked, id);
      forall i, j | 0 <= i < j < |d'.unlocked| ensures d'.unlocked[i] != d'.unlocked[j] {
        if j == |d.unlocked| {
          assert d'.unlocked[i] in d.unlocked;
        }
      }
    }
  }
}
